=== FILE: README.md ===
# meteosatpy in Dafny

meteosatpy downloads satellite precipitation estimates (IMERG, CHIRPS, CMORPH,
MSWEP, PERSIANN) and turns each file into a GeoTIFF. This project models the
two pieces of pure logic in that pipeline and proves properties about them:

- **`netcdf2TIFF`**, the grid pipeline. It takes one time slice of a NetCDF
  variable. If the file has an extra leading axis, it keeps the first slice.
  It can then transpose the array, swap the two longitude halves, and flip it
  upside down. Finally it derives the raster metadata and the affine
  transform from the coordinate arrays.
- **The request layer of each product.** Each product maps a date and option
  strings either to an error or to the request it sends. The request is a
  URL, a file name, an `rclone` command or a query record. Each product also
  chooses the conversion flags and how the result is copied or clipped.

The files:

- `errors.dfy`: Python's exceptions as values, with `Result`, `Option` and `Check`.
- `text.dfy`: digit strings, zero padding (`{n:04d}` and strftime fields),
  containment, and Python's `str.replace`.
- `dates.dfy`: the `datetime` record, the day of the year (`%j`), and the
  strftime fields used: `%Y %m %d %H %M %S %j`.
- `grid.dfy`: rectangular arrays, transposition, the half swap and the flip.
- `convert.dfy`: `netcdf2TIFF`, its transform arithmetic over `real`, and the
  output-path and `ungzip` renaming.
- `plans.dfy`: a download as a value (fetch, unpack, conversion, clip), and
  the replacement of negative cells after a clip.
- `utils.dfy`: `min_code` and `get_params_persiann`.
- `imerg.dfy`, `chirps.dfy`, `cmorph.dfy`, `mswep.dfy`, `persiann.dfy`: the
  `download` method of each product, plus the constructor checks of IMERG and
  MSWEP.

The outside world becomes parameters:

- the HTTP status codes and whether a download succeeded;
- the exit status of `rclone`;
- whether `rclone` is installed;
- the fields the PERSIANN portal returns.

A `download` that gets that far returns a `Plan`. The plan records:

- what is fetched and where it is saved;
- the `ungzip` step, if any;
- the `netcdf2TIFF` call, with its variable, time key and flags;
- the last step: copy the raster unchanged, or clip it to a box and replace
  its negative cells with 0 or NaN.

Python's `raise("...")` raises a `TypeError`, because a string is not an
exception. It is modelled as `TypeError` carrying the message the code meant
to raise. A local variable that is never assigned becomes `UnboundLocal`, and
an index past the end becomes `IndexError`.

Some failures are not the ones the code's messages announce:

- A rejected Earthdata login never reaches its `raise`: building the message
  calls `read()` on the `requests` response, which has no such method, so the
  IMERG constructor fails with `AttributeError` (`Imerg.Login`).
- `IMERG.download` computes the end of the half hour for every request. From
  23:30:01 on 9999-12-31 that sum overflows, whatever the timestep
  (`Imerg.LastHalfHourOverflows`).
- `netcdf2TIFF` with `multidimention` on a two-dimensional variable leaves a
  single row, and the code fails where it reads the row's missing second
  axis. A three-dimensional array without `multidimention` reaches the writer,
  which refuses it, and so does a band without rows or columns, for which the
  GeoTIFF driver will not create a file.

The code checks neither an odd width nor uneven coordinate spacing, and the
model follows it: `Grids.HalfSwapTwiceOdd` shows what an odd width does, and
`Convert.Resolution` uses only the first two coordinates.

Unpacking removes every ".gz" from the name, which can join two pieces into a
new ".gz": "..gzgz" unpacks to ".gz" (`Convert.UngzipCanLeaveGz`). A ".nc"
cannot be rebuilt that way, so the default GeoTIFF path never holds one
(`Convert.DefaultOutPath`).

## Model

| member | source | states |
|---|---|---|
| Text.Pad | meteosatpy/utils.py:197 | zero padding to a minimum width: all digits, at least `width` long, exactly `width` long when the number fits, and it reads back as the number |
| Text.PadInjective | meteosatpy/utils.py:197 | distinct numbers get distinct padded strings |
| Text.ReplaceAbsent | meteosatpy/utils.py:23 | `str.replace` leaves a string without the pattern unchanged |
| Dates.DayOfYear | meteosatpy/imerg.py:81 | `%j` lies between 1 and the length of the year, and equals the day in January |
| Dates.DayOfYearInjective | meteosatpy/mswep.py:59 | within one year, the ordinal day determines month and day, and vice versa |
| Dates.CompactDateRoundTrip | meteosatpy/imerg.py:78 | `%Y%m%d` reads back as year, month and day |
| Dates.CompactDateValue | meteosatpy/cmorph.py:51 | the eight digits of `%Y%m%d` spell the number `YYYYMMDD` |
| Dates.NextDay | meteosatpy/imerg.py:82 | midnight of the next day, one ordinal day later or day 1 of the next year, and nothing after 9999-12-31 |
| Dates.HalfHourLater | meteosatpy/imerg.py:82 | `date + timedelta(seconds=1799)`: nothing exactly when the sum passes 9999-12-31 23:59:59; otherwise a valid moment 1799 s later on the clock, on the same day or at that time on the next day |
| Dates.EndClockOfHalfHourLater | meteosatpy/imerg.py:82-84 | the end stamp is `%H%M%S` of the moment 1799 s later |
| Dates.HalfHourWindow | meteosatpy/imerg.py:82-84 | the start stamp reads back as the second of the day; the end stamp is 1799 s later, wrapping at midnight as `timedelta` does |
| Dates.TimeKeyIgnoresHour | meteosatpy/imerg.py:138 | the time key `%Y-%m-%d %M:00` is the same for every hour of a date and minute |
| Dates.TimeKeyHourSlot | meteosatpy/imerg.py:138 | the field where the hour would sit holds the minute |
| Grids.Transpose | meteosatpy/utils.py:147-148 | an h x w array becomes w x h, with entry (i, j) taken from (j, i) |
| Grids.TransposeInvolution | meteosatpy/utils.py:147-148 | transposing twice restores the array |
| Grids.HalfSwap | meteosatpy/utils.py:151-153 | shape is kept; the first `w - w/2` entries of a row come from offset `w/2` and the rest from the row's start |
| Grids.HalfSwapKeepsRowValues | meteosatpy/utils.py:151-153 | every row keeps its multiset of values |
| Grids.HalfSwapInvolution | meteosatpy/utils.py:151-153 | on an even width, swapping twice restores the array |
| Grids.HalfSwapTwiceOdd | meteosatpy/utils.py:151-153 | on an odd width, swapping twice turns every row right by one place instead |
| Grids.Flip | meteosatpy/utils.py:157-158 | the rows in reverse order, each row untouched, shape kept |
| Grids.FlipInvolution | meteosatpy/utils.py:157-158 | flipping twice restores the array |
| Grids.FlipHalfSwapCommute | meteosatpy/utils.py:150-158 | the flip and the half swap can be applied in either order |
| Grids.TransposeHalfSwapOrderMatters | meteosatpy/utils.py:146-153 | the transpose and the half swap do not commute, so their order in the code matters |
| Convert.Resolution | meteosatpy/utils.py:139-140 | the pixel size is non-negative and is the difference of the first two coordinates in one direction |
| Convert.Min | meteosatpy/utils.py:143 | `lon.min()` is an element of the coordinates and no larger than any of them |
| Convert.Max | meteosatpy/utils.py:144 | `lat.max()` is an element of the coordinates and no smaller than any of them |
| Convert.FromOrigin | meteosatpy/utils.py:161 | `from_origin` maps pixel (0, 0) to the corner, one column east by `xsize`, and one row south by `ysize` |
| Convert.CornerOf | meteosatpy/utils.py:139-154 | north is the largest latitude plus half a pixel; west is the smallest longitude minus half a pixel, less 180 under the correction |
| Convert.CorrectionShiftsWestOnly | meteosatpy/utils.py:151-154 | the correction lowers west by exactly 180 and leaves north unchanged |
| Convert.Layout | meteosatpy/utils.py:146-158 | the three optional steps in the code's order; the shape is swapped exactly when transposing |
| Convert.LayoutMovesEntries | meteosatpy/utils.py:146-158 | every output entry equals the input entry given by an independent index formula (`SourceOf`) for every combination of the flags |
| Convert.DefaultOutPath | meteosatpy/utils.py:122-123 | no ".nc" is left in the result, and a path without ".nc" is kept, so the raster would overwrite the file it was read from |
| Convert.NoNcAfterReplace | meteosatpy/utils.py:122-123 | once every ".nc" has become ".tif", no ".nc" remains |
| Convert.Netcdf2Tiff | meteosatpy/utils.py:106-174 | errors in the code's order: `data[0]` on an empty array, then `lat[1]`, then `lon[1]`, then `data.shape[1]` of the single row that `data[0]` leaves of a plane, then the writer refusing a three-dimensional array, then the GeoTIFF driver refusing a band without rows or columns; otherwise the metadata height and width are the final array's and both positive, count is 1, the CRS is the fixed WGS84 string, the transform is `from_origin` at the `CornerOf` corner with the two resolutions, and the default path comes from `DefaultOutPath` |
| Convert.ConversionLayout | meteosatpy/utils.py:131-170 | the written band is the selected slice laid out by the flags |
| Convert.CorrectionEffect | meteosatpy/utils.py:150-161 | turning the correction on changes the band only by the half swap, and the transform only by 180 degrees in its west coordinate |
| Convert.UnitGridExample | meteosatpy/utils.py:139-161 | latitudes 10, 9, 8 and longitudes -10, -9, -8 give a 3 x 3 raster with the affine coefficients (1, 0, -10.5, 0, -1, 10.5) |
| Convert.CorrectionExample | meteosatpy/utils.py:151-161 | under the correction the row [a, b, c, d] is written as [c, d, a, b] and the west edge drops by 180 |
| Convert.UngzipPlan | meteosatpy/utils.py:14-32 | the source is the given path, it is removed exactly when `remove` is set, and the target is never longer |
| Convert.UngzipTarget | meteosatpy/utils.py:23 | a name ending in the only ".gz" loses that suffix; a name without ".gz" is its own target |
| Convert.UngzipCanLeaveGz | meteosatpy/utils.py:23 | removing every ".gz" can join two pieces into a new one: "..gzgz" unpacks to ".gz" |
| Convert.DefaultOutPathSuffix | meteosatpy/utils.py:122-123 | a name ending in the only ".nc" gets ".tif" in its place |
| Plans.FinishFor | meteosatpy/imerg.py:142-149 | no extent means copying; an extent means clipping to its four coordinates with the product's fill |
| Plans.FillNegatives | meteosatpy/imerg.py:148 | no negative cell remains, negative cells take the fill value, every other cell (NaN included) is kept |
| Plans.FillNegativesIdempotent | meteosatpy/imerg.py:148 | replacing negatives twice is the same as once |
| Utils.MinCode | meteosatpy/utils.py:193-197 | four digits that read back as `hour * 60 + minute`, below 1440 |
| Utils.MinCodeSeparatesTimes | meteosatpy/utils.py:193-197 | two times share a code exactly when they share hour and minute |
| Utils.PersiannParams | meteosatpy/utils.py:233-281 | succeeds exactly for the six server timesteps, else the unassigned `ds`; start equals end and is the `%Y%m%d%H` stamp cut to the timestep's precision; format, compression and data type as given; the timestep pair from the server table |
| Imerg.Login | meteosatpy/imerg.py:19-39 | missing credentials fail with the code's message; a rejected login fails with `AttributeError` on `response.read()`; otherwise the constructor proceeds |
| Imerg.Validate | meteosatpy/imerg.py:57-71 | version, run, timestep and extent are checked in that order, and the first failure gives its `ValueError` |
| Imerg.Window | meteosatpy/imerg.py:80-84 | exactly "-S", the start `HHMMSS`, "-E", the end `HHMMSS`, ".", and the four-digit code, at fixed positions |
| Imerg.WindowReadsBack | meteosatpy/imerg.py:80-84 | the start reads back as the second of the day, the end as that plus 1799 modulo a day, and the code as the minute of the day |
| Imerg.HalfHourlyUrl | meteosatpy/imerg.py:95-120 | exactly the directory `{server}/GPM_3IMERG{collection}.{vv}/{year}/{day of year}`, then `/3B-HHR{tag}.MS.MRG.3IMERG.`, the `%Y%m%d` date, the half-hour window and ".", then `V{vv}B.HDF5.nc4?` |
| Imerg.HalfHourlyUrlIdentifiesMoment | meteosatpy/imerg.py:95-96 | two half-hourly URLs of one collection are equal exactly when they are for the same moment |
| Imerg.DailyUrl | meteosatpy/imerg.py:100-124 | exactly the directory `{server}/GPM_3IMERG{collection}.{vv}/{year}/{month}`, then `/3B-DAY{tag}.MS.MRG.3IMERG.`, the `%Y%m%d` date and `-S000000-E235959.V{vv}`, then the given ending and "?" |
| Imerg.DailyUrlIdentifiesDay | meteosatpy/imerg.py:100-101 | two daily URLs of one collection are equal exactly when they are for the same day |
| Imerg.MonthlyUrl | meteosatpy/imerg.py:110-111 | exactly the directory `{server}/GPM_3IMERGM.{vv}/{year}`, then `/3B-MO.MS.MRG.3IMERG.`, the first day of the month as `%Y%m01`, `-S000000-E235959.`, the month and ".", then `V{vv}B.HDF5.nc4?` |
| Imerg.MonthlyUrlIdentifiesMonth | meteosatpy/imerg.py:110-111 | two monthly URLs are equal exactly when they are for the same month |
| Imerg.Select | meteosatpy/imerg.py:86-127 | a late or early monthly request fails; otherwise the variable is "precipitationCal" only for v06 outside monthly, `multidim` is off only for final daily v07, and each run and timestep gets its URL: half-hourly HH on the first server, HHL with "-L" and HHE with "-E" on the second; daily DF ending "B.nc4.nc4" for v07 and ".nc4.nc4" for v06, DL with "-L" and DE with "-E" ending ".nc4.nc4"; monthly for the final run |
| Imerg.SelectServerAndEnding | meteosatpy/imerg.py:93-124 | only the late and early half-hourly URLs start with the second server; daily URLs end with "B.nc4.nc4?" for final v07 and ".nc4.nc4?" otherwise, all others with `V{vv}B.HDF5.nc4?` |
| Imerg.Download | meteosatpy/imerg.py:43-149 | validation errors first, then the overflow of the half-hour end, then the monthly error, then the download error; a success converts "temporal.nc" with the selected variable, `multidim`, transpose and flip, no correction, the hour-free time key, copies or clips with 0, and writes to `outpath` |
| Imerg.LastHalfHourOverflows | meteosatpy/imerg.py:76-84 | from 23:30:01 on 9999-12-31 every request that passes the argument checks fails with `OverflowError`, whatever its run, timestep and extent |
| Chirps.Validate | meteosatpy/chirps.py:30-39 | the timestep is checked before the extent, with the code's messages |
| Chirps.FileDate | meteosatpy/chirps.py:46-52 | "YYYY.MM.DD", "YYYY.MM" or "YYYY", and the fields read back as the date |
| Chirps.FileDatePrefixes | meteosatpy/chirps.py:46-52 | the monthly and annual stamps are prefixes of the daily one |
| Chirps.DailyFileDateSeparatesDays | meteosatpy/chirps.py:47-48 | two dates share a daily stamp exactly when they are the same day |
| Chirps.YearFolder | meteosatpy/chirps.py:55-58 | daily files sit in `p05/` and a folder whose four digits read back as the year; other timesteps have no extra level |
| Chirps.Url | meteosatpy/chirps.py:42-58 | the URL is exactly the product directory `.../global_{timestep}/tifs/`, then the year folder, then `chirps-v2.0.{filedate}.tif.gz` |
| Chirps.CoarseUrlsSkipYearFolder | meteosatpy/chirps.py:55-58 | for monthly and annual files the archive follows the product directory directly |
| Chirps.UnpackedName | meteosatpy/chirps.py:62-68 | the archive "temporal.tif.gz" unpacks to "temporal.tif" |
| Chirps.Download | meteosatpy/chirps.py:19-78 | validation errors first; a failed fetch returns with nothing written; otherwise the archive is unpacked and copied or clipped with 0 |
| Cmorph.Extent | meteosatpy/cmorph.py:30-42 | the timestep is checked first; a missing extent becomes (60, -60, -180, 180); a given one must have four entries |
| Cmorph.Stamp | meteosatpy/cmorph.py:50-59 | ten digits for the sub-daily products and eight for the daily one, spelling `YYYYMMDDHH` or `YYYYMMDD` |
| Cmorph.FileName | meteosatpy/cmorph.py:53-59 | the product part (`8km-30min`, `0.25deg-HLY` or `0.25deg-DLY_00Z`), then a run of digits that reads back as the date (and hour for sub-daily files), then ".nc" |
| Cmorph.Directory | meteosatpy/cmorph.py:47-59 | the grid folder, then year and month folders that read back, and a day folder only for the sub-daily products |
| Cmorph.DailyDirectoryIsMonthly | meteosatpy/cmorph.py:58-59 | all daily granules of a month share one directory |
| Cmorph.SubdailyDirectorySeparatesDays | meteosatpy/cmorph.py:54-57 | two dates share a sub-daily directory exactly when they are the same day |
| Cmorph.Url | meteosatpy/cmorph.py:44-62 | the URL is exactly the archive and "/", then the directory, then the file name |
| Cmorph.HalfHoursShareGranule | meteosatpy/cmorph.py:54-55 | both half hours of an hour fetch the same 30-minute granule, because its name carries only the hour |
| Cmorph.HourlyNamesSeparateHours | meteosatpy/cmorph.py:56-57 | two times share an hourly file name exactly when they share date and hour |
| Cmorph.Download | meteosatpy/cmorph.py:20-78 | validation errors first; a failed fetch returns; otherwise the conversion uses "cmorph" with flip and correction, and the result is always clipped, with NaN replacing negatives |
| Mswep.Setup | meteosatpy/mswep.py:17-24 | the constructor fails with the installation message exactly when rclone is missing |
| Mswep.Validate | meteosatpy/mswep.py:38-52 | timestep, dataset and extent are checked in that order with the code's messages |
| Mswep.FileName | meteosatpy/mswep.py:54-64 | `%Y%j.%H.nc`, `%Y%j.nc` or `%Y%m.nc`, whose fields read back as year, ordinal day, hour or month |
| Mswep.DailyNamesSeparateDays | meteosatpy/mswep.py:58-59 | two dates share a daily file name exactly when they are the same day |
| Mswep.Folder | meteosatpy/mswep.py:58-64 | the Drive folder is the timestep, with its first letter capitalised for daily and monthly |
| Mswep.Command | meteosatpy/mswep.py:66-68 | the command is exactly `rclone sync -v --drive-shared-with-me GoogleDrive:/MSWEP_V280`, then `/{dataset}/{folder}/{file}`, then " ./" |
| Mswep.Download | meteosatpy/mswep.py:26-89 | validation errors first; a non-zero exit status is the download error; otherwise the synced file becomes "temporal.nc", is converted without any rearrangement, and is copied or clipped with 0 |
| Persiann.Validate | meteosatpy/persiann.py:35-47 | timestep, then dataset, then the CDR sub-daily refusal, with the code's messages |
| Persiann.FileUrl | meteosatpy/persiann.py:63-72 | the URL is exactly the download base and "/", then `{userIP}/temp/{folder}/`, then `{dataset}_{zipFile}.zip` |
| Persiann.FinishOf | meteosatpy/persiann.py:119-126 | the extent is never checked: a longer list is clipped to its first four entries, and a shorter one fails at the first missing index |
| Persiann.FinishAgreesOnFourCoordinates | meteosatpy/persiann.py:119-126 | on four-entry extents the clip is the one the other products use |
| Persiann.Download | meteosatpy/persiann.py:22-126 | validation, then the query builder, then the two status codes, then the extent; a success sends the query record to the query endpoint, then a link request to the link endpoint with its dates and the original timestep, and fetches the archive, gives it the WGS84 datum, and copies or clips with 0 |
| Persiann.AnnualNeverDownloads | meteosatpy/persiann.py:36-51 | "annual" passes the validation but always ends in the unassigned `ds` error |
| Persiann.YearlyRefused | meteosatpy/persiann.py:36-38 | "yearly", the spelling the query builder knows, is refused by the validation |
| Persiann.LinkDates | meteosatpy/persiann.py:74-84 | the link request's start and end dates are the query's stamp |

## Left out

- HTTP requests, the Earthdata login request and the writing of `.netrc`/`.dodsrc` (`earth_data_explorer_credential`) are network and file I/O; their outcomes are parameters.
- The `rclone` process and `is_installed` are process I/O; the exit status and whether rclone is installed are parameters.
- Reading and writing files, gzip and zip decompression, temporary-file copies and removals, and the status messages printed are left out.
- The PERSIANN JSON reply is left out as a document: a reply without `userIP` or `zipFile` would raise `KeyError`, and the model takes both fields as given.
- The PERSIANN archive's contents are left out: which `.tif` is found in the archive, and the rewrite of the raster with the WGS84 datum, are recorded as the `crs` field only.
- xarray opening and time selection are left out. `netcdf2TIFF` receives the selected values and the `lat`/`lon` arrays directly, and a time that is not in the file is not modelled.
- rasterio `mask`, `createMask` and `maskTIFF` are left out: the clip is recorded as a step, not computed.
- Floating-point behaviour of the resolution and origin arithmetic is left out: coordinates are `real`, and a NaN cell is a separate constructor of `Cell`.
- Years outside 1 to 9999 are left out, because `datetime` cannot hold them.
- Dates.Year4: `%Y` is modelled as zero-padded to four digits, as current CPython writes it; older CPython releases on Linux passed `%Y` to the C library, which writes years below 1000 with one to three digits, so the stamps, URLs and file names for such years differ there.
- Convert.Netcdf2Tiff: the element type name (`str(data.dtype)`) is a parameter rather than derived from the array.
- Convert.Netcdf2Tiff: the writer's refusal of a three-dimensional array, and of a band without rows or columns, is `WriteError` with a reason; the exception type and message rasterio and GDAL raise are not modelled, because neither is part of this model.
- Imerg.Download: a `datetime` is modelled to the second, so the overflow of a request between 23:30:00 and 23:30:01 on 9999-12-31, which only a fraction of a second can cause, is not represented.
- meteosat/utils.py and meteosat/warnings.py are an older copy and warning filters; setup.py is packaging. None is part of this model.

=== FILE: chirps.dfy ===
/** `CHIRPS.download` (meteosatpy/chirps.py): a gzipped GeoTIFF is fetched
    over HTTP, unpacked, and copied or clipped to the requested extent. The
    file is named by the date at the precision of the timestep.

    Whether `urlretrieve` succeeded is the parameter `fetched`; on failure the
    code prints the error and returns normally.
 */
module Chirps {
  import opened Errors
  import opened Text
  import opened Dates
  import opened Plans
  import Convert

  const TimestepMessage := "Invalid timestep. Please provide 'daily', 'monthly', or 'annual'."
  const ExtentMessage := "Invalid extent. Please provide a list with coordinates: 'north', 'south', 'east', 'west'"

  const Server := "https://data.chc.ucsb.edu"

  predicate KnownTimestep(timestep: string) {
    timestep == "daily" || timestep == "monthly" || timestep == "annual"
  }

  /** The timestep is checked before the extent. */
  function Validate(timestep: string, extent: Option<seq<real>>): (c: Check)
    ensures c.Pass? <==> KnownTimestep(timestep) && ExtentOk(extent)
    ensures !KnownTimestep(timestep) ==> c == Fail(ValueError(TimestepMessage))
    ensures KnownTimestep(timestep) && !ExtentOk(extent) ==> c == Fail(ValueError(ExtentMessage))
  {
    if !(timestep in ["daily", "monthly", "annual"]) then Fail(ValueError(TimestepMessage))
    else if extent.Some? && |extent.value| != 4 then Fail(ValueError(ExtentMessage))
    else Pass
  }

  /** The date part of the file name: `%Y.%m.%d`, `%Y.%m` or `%Y`. */
  function FileDate(d: Date, timestep: string): (s: string)
    requires Valid(d)
    ensures |s| == (if timestep == "daily" then 10 else if timestep == "monthly" then 7 else 4)
    ensures AllDigits(s[..4]) && Value(s[..4]) == d.year
    ensures timestep == "daily" || timestep == "monthly" ==>
      s[4] == '.' && AllDigits(s[5..7]) && Value(s[5..7]) == d.month
    ensures timestep == "daily" ==> s[7] == '.' && AllDigits(s[8..10]) && Value(s[8..10]) == d.day
  {
    if timestep == "daily" then
      var s := Year4(d) + "." + Month2(d) + "." + Day2(d);
      assert s[..4] == Year4(d) && s[5..7] == Month2(d) && s[8..10] == Day2(d);
      s
    else if timestep == "monthly" then
      var s := Year4(d) + "." + Month2(d);
      assert s[..4] == Year4(d) && s[5..7] == Month2(d);
      s
    else
      assert Year4(d)[..4] == Year4(d);
      Year4(d)
  }

  /** The coarser file dates are prefixes of the finer ones. */
  lemma FileDatePrefixes(d: Date)
    requires Valid(d)
    ensures FileDate(d, "monthly") == FileDate(d, "daily")[..7]
    ensures FileDate(d, "annual") == FileDate(d, "daily")[..4]
  {
    var daily := Year4(d) + "." + Month2(d) + "." + Day2(d);
    assert daily[..7] == Year4(d) + "." + Month2(d);
    assert daily[..4] == Year4(d);
  }

  /** Two days get the same daily file name exactly when they are the same
      calendar day. */
  lemma DailyFileDateSeparatesDays(d1: Date, d2: Date)
    requires Valid(d1) && Valid(d2)
    ensures FileDate(d1, "daily") == FileDate(d2, "daily") <==>
      d1.year == d2.year && d1.month == d2.month && d1.day == d2.day
  {
    var s1 := FileDate(d1, "daily");
    var s2 := FileDate(d2, "daily");
    if s1 == s2 {
      assert s1[..4] == s2[..4] && s1[5..7] == s2[5..7] && s1[8..10] == s2[8..10];
    }
    if d1.year == d2.year && d1.month == d2.month && d1.day == d2.day {
      assert Year4(d1) == Year4(d2) && Month2(d1) == Month2(d2) && Day2(d1) == Day2(d2);
    }
  }

  /** The product directory of a timestep on the server. */
  function ProductPath(timestep: string): string {
    Server + "/products/CHIRPS-2.0/global_" + timestep + "/tifs/"
  }

  /** The extra level of the daily files, `p05/{year}/`; the other
      timesteps have none. */
  function YearFolder(d: Date, timestep: string): (s: string)
    requires Valid(d)
    ensures timestep != "daily" ==> s == ""
    ensures timestep == "daily" ==>
      |s| == 9 && s[..4] == "p05/" && AllDigits(s[4..8]) && Value(s[4..8]) == d.year && s[8] == '/'
  {
    if timestep == "daily" then
      var s := "p05/" + Year4(d) + "/";
      assert s[4..8] == Year4(d);
      s
    else ""
  }

  /** The archive's name: `chirps-v2.0.{filedate}.tif.gz`. */
  function ArchiveName(d: Date, timestep: string): string
    requires Valid(d)
  {
    "chirps-v2.0." + FileDate(d, timestep) + ".tif.gz"
  }

  /** The download URL: the product directory of the timestep, the daily
      files' year folder, and the archive's name, and nothing else. */
  function Url(d: Date, timestep: string): (url: string)
    requires Valid(d)
    ensures StartsWith(url, ProductPath(timestep))
    ensures EndsWith(url, ArchiveName(d, timestep))
    ensures |url| == |ProductPath(timestep)| + |YearFolder(d, timestep)| + |ArchiveName(d, timestep)|
    ensures url[|ProductPath(timestep)|..|url| - |ArchiveName(d, timestep)|] == YearFolder(d, timestep)
  {
    Pieces(ProductPath(timestep), YearFolder(d, timestep), ArchiveName(d, timestep));
    ProductPath(timestep) + YearFolder(d, timestep) + ArchiveName(d, timestep)
  }

  /** Only the daily URL is one level deeper: for the other timesteps the
      archive follows the product directory directly. */
  lemma CoarseUrlsSkipYearFolder(d: Date, timestep: string)
    requires Valid(d) && timestep != "daily"
    ensures Url(d, timestep) == ProductPath(timestep) + ArchiveName(d, timestep)
  {
    assert YearFolder(d, timestep) == "";
    assert ProductPath(timestep) + "" == ProductPath(timestep);
  }

  /** The downloaded archive unpacks to `temporal.tif`. */
  lemma UnpackedName()
    ensures Convert.UngzipPlan("temporal.tif.gz", true).target == "temporal.tif"
  {
    var s := "temporal.tif";
    forall i | 0 <= i <= |s| - 3
      ensures !OccursAt(s, ".gz", i)
    {
      assert s[i..i + 3][0] == s[i] && s[i..i + 3][1] == s[i + 1];
    }
    assert s + ".gz" == "temporal.tif.gz";
    Convert.UngzipTarget(s, true);
  }

  /** `CHIRPS.download`. */
  function Download(d: Date, timestep: string, outpath: string, extent: Option<seq<real>>,
                    fetched: bool): (r: Result<Report>)
    requires Valid(d)
    ensures r.Err? <==> Validate(timestep, extent).Fail?
    ensures r.Err? ==> r.error == Validate(timestep, extent).error
    ensures r.Ok? ==> (r.value.Written? <==> fetched)
    ensures r.Ok? && !fetched ==> r.value == Abandoned(Http(Url(d, timestep)))
    ensures r.Ok? && fetched ==> r.value.Written? && r.value.plan.fetch == Http(Url(d, timestep))
    ensures r.Ok? && r.value.Written? ==> (var p := r.value.plan;
      && p.saved == "temporal.tif.gz"
      && p.unpack == Some(Convert.Ungzip("temporal.tif.gz", "temporal.tif", true))
      && p.conversion.None?
      && p.output == outpath
      && (p.finish.CopyAsIs? <==> extent.None?)
      && (extent.Some? ==> p.finish == ClipAndFill(BoxOf(extent.value), ZeroFill)))
  {
    var check := Validate(timestep, extent);
    if check.Fail? then Err(check.error)
    else
      var url := Url(d, timestep);
      if !fetched then Ok(Abandoned(Http(url)))
      else
        UnpackedName();
        Ok(Written(Plan(Http(url), "temporal.tif.gz", Some(Convert.UngzipPlan("temporal.tif.gz", true)),
                        None, FinishFor(extent, ZeroFill), outpath)))
  }
}

=== FILE: cmorph.dfy ===
/** `CMORPH.download` (meteosatpy/cmorph.py): a NetCDF granule is fetched
    over HTTP from NOAA's CMORPH archive, converted with the flip and the
    longitude correction, and always clipped: without an extent the clip uses
    a default box. Negative cells become NaN.

    Whether `urlretrieve` succeeded is the parameter `fetched`; on failure the
    code prints the error and returns normally.
 */
module Cmorph {
  import opened Errors
  import opened Text
  import opened Dates
  import opened Plans
  import Convert

  const TimestepMessage := "Invalid timestep. Please provide '30min', 'hourly', 'daily'."
  const ExtentMessage := "Invalid extent. Please provide a list with coordinates: 'north', 'south', 'east', 'west'"

  const Archive := "https://www.ncei.noaa.gov/data/cmorph-high-resolution-global-precipitation-estimates/access"

  /** The extent used when none is given: north 60, south -60, east -180,
      west 180. East and west are the other way round from the world's, but
      the four corners span the same band. */
  const DefaultExtent: seq<real> := [60.0, -60.0, -180.0, 180.0]

  predicate KnownTimestep(timestep: string) {
    timestep == "30min" || timestep == "hourly" || timestep == "daily"
  }

  /** The timestep is checked first; then a missing extent takes the default
      and a given one must have four entries. */
  function Extent(timestep: string, extent: Option<seq<real>>): (r: Result<seq<real>>)
    ensures r.Ok? <==> KnownTimestep(timestep) && ExtentOk(extent)
    ensures !KnownTimestep(timestep) ==> r == Err(ValueError(TimestepMessage))
    ensures KnownTimestep(timestep) && !ExtentOk(extent) ==> r == Err(ValueError(ExtentMessage))
    ensures r.Ok? ==> |r.value| == 4
    ensures r.Ok? ==> r.value == (if extent.None? then DefaultExtent else extent.value)
  {
    if !(timestep in ["30min", "hourly", "daily"]) then Err(ValueError(TimestepMessage))
    else if extent.None? then Ok(DefaultExtent)
    else if |extent.value| != 4 then Err(ValueError(ExtentMessage))
    else Ok(extent.value)
  }

  /** The half-hourly and hourly products, which are stored by day and
      named by the hour. */
  predicate Subdaily(timestep: string) {
    timestep == "30min" || timestep == "hourly"
  }

  /** The product part of a granule's name: the 8 km half-hourly, the
      0.25 degree hourly or the 0.25 degree daily record. */
  function Product(timestep: string): string {
    if timestep == "30min" then "CMORPH_V1.0_ADJ_8km-30min_"
    else if timestep == "hourly" then "CMORPH_V1.0_ADJ_0.25deg-HLY_"
    else "CMORPH_V1.0_ADJ_0.25deg-DLY_00Z_"
  }

  /** The number `YYYYMMDD`, extended by `HH` for the sub-daily products. */
  function StampValue(d: Date, timestep: string): nat
    requires Valid(d)
  {
    var day := d.year * 10000 + d.month * 100 + d.day;
    if Subdaily(timestep) then day * 100 + d.hour else day
  }

  /** The date, and for the sub-daily products the hour, as one run of
      digits: `%Y%m%d%H` or `%Y%m%d`. */
  function Stamp(d: Date, timestep: string): (s: string)
    requires Valid(d)
    ensures |s| == (if Subdaily(timestep) then 10 else 8)
    ensures AllDigits(s) && Value(s) == StampValue(d, timestep)
  {
    CompactDateValue(d);
    if Subdaily(timestep) then
      ValueAppend(CompactDate(d), Hour2(d));
      assert Pow10(2) == 100;
      CompactDate(d) + Hour2(d)
    else CompactDate(d)
  }

  /** The granule's file name: the product, then the stamp, then ".nc". */
  function FileName(d: Date, timestep: string): (s: string)
    requires Valid(d)
    ensures StartsWith(s, Product(timestep)) && EndsWith(s, ".nc")
    ensures |s| == |Product(timestep)| + (if Subdaily(timestep) then 10 else 8) + 3
    ensures var stamp := s[|Product(timestep)|..|s| - 3];
      AllDigits(stamp) && Value(stamp) == StampValue(d, timestep)
  {
    var s := Product(timestep) + Stamp(d, timestep) + ".nc";
    assert s[..|Product(timestep)|] == Product(timestep);
    assert s[|Product(timestep)|..|s| - 3] == Stamp(d, timestep);
    assert s[|s| - 3..] == ".nc";
    s
  }

  /** The grid part of a granule's directory. */
  function Grid(timestep: string): string {
    if timestep == "30min" then "30min/8km/"
    else if timestep == "hourly" then "hourly/0.25deg/"
    else "daily/0.25deg/"
  }

  /** `{year}/{month}/`, and `{day}/` after them when `withDay` holds;
      every field reads back. */
  function DatedPath(d: Date, withDay: bool): (s: string)
    requires Valid(d)
    ensures |s| == (if withDay then 11 else 8)
    ensures AllDigits(s[..4]) && Value(s[..4]) == d.year && s[4] == '/'
    ensures AllDigits(s[5..7]) && Value(s[5..7]) == d.month && s[7] == '/'
    ensures withDay ==> AllDigits(s[8..10]) && Value(s[8..10]) == d.day && s[10] == '/'
  {
    var rest := if withDay then Day2(d) + "/" else "";
    SlashFields(Year4(d), Month2(d), rest);
    var s := Year4(d) + "/" + Month2(d) + "/" + rest;
    assert withDay ==> s[8..10] == rest[..2] == Day2(d) && s[10] == rest[2];
    s
  }

  /** Where the fields of `{y}/{m}/{rest}` sit. */
  lemma SlashFields(y: string, m: string, rest: string)
    ensures var s := y + "/" + m + "/" + rest;
      && |s| == |y| + |m| + 2 + |rest|
      && s[..|y|] == y && s[|y|] == '/' && s[|y| + 1..|y| + 1 + |m|] == m && s[|y| + 1 + |m|] == '/'
      && s[|y| + |m| + 2..] == rest
  {
    var s := y + "/" + m + "/" + rest;
    assert s[..|y|] == y;
    assert s[|y| + 1..|y| + 1 + |m|] == m;
    assert s[|y| + |m| + 2..] == rest;
  }

  /** The directory of the granule: the grid folder, then the dated path,
      which has a day level only for the sub-daily products. */
  function Directory(d: Date, timestep: string): (dir: string)
    requires Valid(d)
    ensures StartsWith(dir, Grid(timestep))
    ensures |dir| == |Grid(timestep)| + (if Subdaily(timestep) then 11 else 8)
    ensures dir[|Grid(timestep)|..] == DatedPath(d, Subdaily(timestep))
  {
    var dir := Grid(timestep) + DatedPath(d, Subdaily(timestep));
    assert dir[..|Grid(timestep)|] == Grid(timestep);
    assert dir[|Grid(timestep)|..] == DatedPath(d, Subdaily(timestep));
    dir
  }

  /** The daily granules of one month share a directory. */
  lemma DailyDirectoryIsMonthly(d1: Date, d2: Date)
    requires Valid(d1) && Valid(d2) && d1.year == d2.year && d1.month == d2.month
    ensures Directory(d1, "daily") == Directory(d2, "daily")
  {
    assert Year4(d1) == Year4(d2) && Month2(d1) == Month2(d2);
    assert DatedPath(d1, false) == DatedPath(d2, false);
  }

  /** A sub-daily directory holds one day: two dates share it exactly when
      they are the same day. */
  lemma SubdailyDirectorySeparatesDays(d1: Date, d2: Date, timestep: string)
    requires Valid(d1) && Valid(d2) && Subdaily(timestep)
    ensures Directory(d1, timestep) == Directory(d2, timestep) <==>
      d1.year == d2.year && d1.month == d2.month && d1.day == d2.day
  {
    var k := |Grid(timestep)|;
    if Directory(d1, timestep) == Directory(d2, timestep) {
      assert DatedPath(d1, true) == Directory(d1, timestep)[k..] == DatedPath(d2, true);
    }
    if d1.year == d2.year && d1.month == d2.month && d1.day == d2.day {
      assert Year4(d1) == Year4(d2) && Month2(d1) == Month2(d2) && Day2(d1) == Day2(d2);
      assert DatedPath(d1, true) == DatedPath(d2, true);
    }
  }

  /** The URL: the archive, then the directory, then the file name, and
      nothing else. */
  function Url(d: Date, timestep: string): (url: string)
    requires Valid(d)
    ensures StartsWith(url, Archive + "/")
    ensures EndsWith(url, FileName(d, timestep))
    ensures |url| == |Archive| + 1 + |Directory(d, timestep)| + |FileName(d, timestep)|
    ensures url[|Archive| + 1..|url| - |FileName(d, timestep)|] == Directory(d, timestep)
  {
    Pieces(Archive + "/", Directory(d, timestep), FileName(d, timestep));
    var url := Archive + "/" + Directory(d, timestep) + FileName(d, timestep);
    url
  }

  /** The 8 km half-hourly file is named by the hour: both half hours of an
      hour download the same granule, so the minute of the request has no
      effect on the data. */
  lemma {:induction false} HalfHoursShareGranule(d1: Date, d2: Date)
    requires Valid(d1) && Valid(d2)
    requires d1.year == d2.year && d1.month == d2.month && d1.day == d2.day && d1.hour == d2.hour
    ensures Url(d1, "30min") == Url(d2, "30min")
  {
    assert Year4(d1) == Year4(d2) && Month2(d1) == Month2(d2) && Day2(d1) == Day2(d2);
    assert CompactDate(d1) == CompactDate(d2) && Hour2(d1) == Hour2(d2);
  }

  /** The hour stamp in a sub-daily file name determines the date and hour. */
  lemma HourlyNamesSeparateHours(d1: Date, d2: Date)
    requires Valid(d1) && Valid(d2)
    ensures FileName(d1, "hourly") == FileName(d2, "hourly") <==>
      d1.year == d2.year && d1.month == d2.month && d1.day == d2.day && d1.hour == d2.hour
  {
    var s1 := FileName(d1, "hourly");
    var s2 := FileName(d2, "hourly");
    if s1 == s2 {
      var k := |Product("hourly")|;
      assert s1[k..|s1| - 3] == s2[k..|s2| - 3];
      assert StampValue(d1, "hourly") == StampValue(d2, "hourly");
      var day1 := d1.year * 10000 + d1.month * 100 + d1.day;
      var day2 := d2.year * 10000 + d2.month * 100 + d2.day;
      PairSplits(day1, d1.hour, day2, d2.hour);
      PairSplits(d1.year * 100 + d1.month, d1.day, d2.year * 100 + d2.month, d2.day);
      PairSplits(d1.year, d1.month, d2.year, d2.month);
    }
    if d1.year == d2.year && d1.month == d2.month && d1.day == d2.day && d1.hour == d2.hour {
      assert Year4(d1) == Year4(d2) && Month2(d1) == Month2(d2) && Day2(d1) == Day2(d2);
      assert Stamp(d1, "hourly") == Stamp(d2, "hourly");
    }
  }

  /** A two-digit field appended to a number can be told apart from it. */
  lemma PairSplits(x1: int, y1: int, x2: int, y2: int)
    requires 0 <= y1 < 100 && 0 <= y2 < 100
    requires x1 * 100 + y1 == x2 * 100 + y2
    ensures x1 == x2 && y1 == y2
  {
  }

  /** `CMORPH.download`. */
  function Download(d: Date, timestep: string, outpath: string, extent: Option<seq<real>>,
                    fetched: bool): (r: Result<Report>)
    requires Valid(d)
    ensures r.Err? <==> Extent(timestep, extent).Err?
    ensures r.Err? ==> r.error == Extent(timestep, extent).error
    ensures r.Ok? && !fetched ==> r.value == Abandoned(Http(Url(d, timestep)))
    ensures r.Ok? && fetched ==> r.value.Written? && r.value.plan.fetch == Http(Url(d, timestep))
    ensures r.Ok? && fetched ==> (var p := r.value.plan;
      && p.saved == "temporal.nc"
      && p.unpack.None?
      && p.conversion == Some(Conversion("temporal.nc", "cmorph", TimeKey(d),
                                         Convert.Options(flip := true, correction := true,
                                                         multidim := false, transpose := false)))
      && p.output == outpath
      && p.finish == ClipAndFill(BoxOf(if extent.None? then DefaultExtent else extent.value), NaNFill))
  {
    var box :- Extent(timestep, extent);
    var url := Url(d, timestep);
    if !fetched then Ok(Abandoned(Http(url)))
    else
      var options := Convert.Options(flip := true, correction := true, multidim := false, transpose := false);
      Ok(Written(Plan(Http(url), "temporal.nc", None, Some(Conversion("temporal.nc", "cmorph", TimeKey(d), options)),
                      ClipAndFill(BoxOf(box), NaNFill), outpath)))
  }
}

=== FILE: convert.dfy ===
/** `netcdf2TIFF` (meteosatpy/utils.py): turn the slice of a NetCDF variable
    selected at one time stamp into a single-band GeoTIFF description, and the
    file-name rules of `netcdf2TIFF` and `ungzip`.

    Opening the dataset, selecting the time stamp and writing the file are
    not modelled; the conversion starts from the selected values and the
    `lat`/`lon` coordinate arrays and ends with the array, metadata and path
    that would be written. Coordinates are `real`s, an idealisation of the
    floating-point arithmetic of the code.
 */
module Convert {
  import opened Errors
  import opened Text
  import opened Grids

  /** The flags of the conversion: `isflip`, `correction`, `multidimention`
      and `traspose` in the code. */
  datatype Options = Options(flip: bool, correction: bool, multidim: bool, transpose: bool)

  /** The values of the variable at the selected time: a two-dimensional
      array, or one with an extra leading axis (IMERG's files). */
  datatype Values<T> = Plane(grid: Matrix<T>) | Stack(layers: seq<Matrix<T>>)

  predicate WellFormed<T>(v: Values<T>) {
    match v
    case Plane(g) => g.Valid()
    case Stack(ls) => forall k :: 0 <= k < |ls| ==> ls[k].Valid()
  }

  /** Only these combinations leave a two-dimensional array after the
      optional `data[0]`: a stack reduced to its first layer, or a plane
      left alone. A plane reduced by `data[0]` is one row, which has no
      second axis; a stack left alone keeps three axes. */
  predicate Reducible<T>(v: Values<T>, multidim: bool) {
    if multidim then v.Stack? && |v.layers| > 0 else v.Plane?
  }

  /** `data[0]` applied to an empty array fails at once. */
  predicate EmptyLeadingAxis<T>(v: Values<T>) {
    match v
    case Plane(g) => |g.rows| == 0
    case Stack(ls) => |ls| == 0
  }

  /** Pixel size along one axis: the distance between the first two
      coordinates (the grid is assumed evenly spaced). */
  function Resolution(c: seq<real>): (r: real)
    requires |c| >= 2
    ensures r >= 0.0
    ensures r == c[1] - c[0] || r == c[0] - c[1]
  {
    if c[1] - c[0] >= 0.0 then c[1] - c[0] else c[0] - c[1]
  }

  function Min(c: seq<real>): (m: real)
    requires |c| > 0
    ensures exists k :: 0 <= k < |c| && c[k] == m
    ensures forall k :: 0 <= k < |c| ==> m <= c[k]
  {
    if |c| == 1 then c[0]
    else
      var rest := Min(c[1..]);
      assert forall k :: 1 <= k < |c| ==> c[k] == c[1..][k - 1];
      if c[0] <= rest then c[0] else rest
  }

  function Max(c: seq<real>): (m: real)
    requires |c| > 0
    ensures exists k :: 0 <= k < |c| && c[k] == m
    ensures forall k :: 0 <= k < |c| ==> c[k] <= m
  {
    if |c| == 1 then c[0]
    else
      var rest := Max(c[1..]);
      assert forall k :: 1 <= k < |c| ==> c[k] == c[1..][k - 1];
      if c[0] >= rest then c[0] else rest
  }

  /** The six coefficients of rasterio's `Affine`: a pixel at column `x` and
      row `y` has its corner at `(a*x + b*y + c, d*x + e*y + f)`. */
  datatype Transform = Transform(a: real, b: real, c: real, d: real, e: real, f: real)

  function Apply(t: Transform, col: real, row: real): (real, real) {
    (t.a * col + t.b * row + t.c, t.d * col + t.e * row + t.f)
  }

  /** `from_origin(west, north, xsize, ysize)`: north-up pixels of the given
      size whose first corner is `(west, north)`. */
  function FromOrigin(west: real, north: real, xsize: real, ysize: real): (t: Transform)
    ensures Apply(t, 0.0, 0.0) == (west, north)
    ensures Apply(t, 1.0, 0.0) == (west + xsize, north)
    ensures Apply(t, 0.0, 1.0) == (west, north - ysize)
  {
    Transform(xsize, 0.0, west, 0.0, -ysize, north)
  }

  /** The upper-left corner of the raster: half a pixel west of the westernmost
      longitude (moved 180 degrees further west under correction) and half a
      pixel north of the northernmost latitude. */
  datatype Corner = Corner(west: real, north: real)

  function CornerOf(lat: seq<real>, lon: seq<real>, correction: bool): (o: Corner)
    requires |lat| >= 2 && |lon| >= 2
    ensures forall k :: 0 <= k < |lat| ==> lat[k] + Resolution(lat) / 2.0 <= o.north
    ensures exists k :: 0 <= k < |lat| && lat[k] + Resolution(lat) / 2.0 == o.north
    ensures forall k :: 0 <= k < |lon| ==>
      o.west + (if correction then 180.0 else 0.0) <= lon[k] - Resolution(lon) / 2.0
    ensures exists k :: (0 <= k < |lon| &&
      o.west + (if correction then 180.0 else 0.0) == lon[k] - Resolution(lon) / 2.0)
  {
    var west := Min(lon) - Resolution(lon) / 2.0;
    Corner(if correction then west - 180.0 else west, Max(lat) + Resolution(lat) / 2.0)
  }

  /** The correction moves the corner exactly 180 degrees west and leaves its
      latitude alone. */
  lemma CorrectionShiftsWestOnly(lat: seq<real>, lon: seq<real>)
    requires |lat| >= 2 && |lon| >= 2
    ensures CornerOf(lat, lon, true).west == CornerOf(lat, lon, false).west - 180.0
    ensures CornerOf(lat, lon, true).north == CornerOf(lat, lon, false).north
  {
  }

  /** The transpose, when `traspose` is set. */
  function TransposeIf<T>(transpose: bool, a: Matrix<T>): (t: Matrix<T>)
    requires a.Valid()
    ensures t.Valid()
    ensures transpose ==> t.Height() == a.width && t.width == a.Height()
    ensures !transpose ==> t == a
    ensures transpose ==> forall i, j :: 0 <= i < t.Height() && 0 <= j < t.width ==> t.rows[i][j] == a.rows[j][i]
  {
    if transpose then Transpose(a) else a
  }

  /** The half swap of the longitude halves, when `correction` is set. */
  function HalfSwapIf<T>(correction: bool, a: Matrix<T>): (s: Matrix<T>)
    requires a.Valid()
    ensures s.Valid()
    ensures s.Height() == a.Height() && s.width == a.width
    ensures !correction ==> s == a
    ensures correction ==> forall i, j :: 0 <= i < s.Height() && 0 <= j < a.width - a.width / 2 ==>
      s.rows[i][j] == a.rows[i][j + a.width / 2]
    ensures correction ==> forall i, j :: 0 <= i < s.Height() && a.width - a.width / 2 <= j < a.width ==>
      s.rows[i][j] == a.rows[i][j - (a.width - a.width / 2)]
  {
    if correction then HalfSwap(a) else a
  }

  /** The vertical flip, when `isflip` is set. */
  function FlipIf<T>(flip: bool, a: Matrix<T>): (f: Matrix<T>)
    requires a.Valid()
    ensures f.Valid()
    ensures f.Height() == a.Height() && f.width == a.width
    ensures !flip ==> f == a
    ensures flip ==> forall i :: 0 <= i < f.Height() ==> f.rows[i] == a.rows[a.Height() - 1 - i]
  {
    if flip then Flip(a) else a
  }

  /** The rearrangement of the array, in the code's order: transpose, then
      the half swap, then the vertical flip. */
  function Layout<T>(o: Options, a: Matrix<T>): (r: Matrix<T>)
    requires a.Valid()
    ensures r.Valid()
    ensures o.transpose ==> r.Height() == a.width && r.width == a.Height()
    ensures !o.transpose ==> r.Height() == a.Height() && r.width == a.width
  {
    FlipIf(o.flip, HalfSwapIf(o.correction, TransposeIf(o.transpose, a)))
  }

  /** Where output entry `(i, j)` comes from, worked out directly from the
      flags for an input of shape `h` by `w`: undo the flip on the row, undo
      the half swap on the column, then undo the transpose. */
  function SourceOf(o: Options, h: nat, w: nat, i: nat, j: nat): (nat, nat)
    requires o.transpose ==> i < w && j < h
    requires !o.transpose ==> i < h && j < w
  {
    var rows := if o.transpose then w else h;
    var cols := if o.transpose then h else w;
    var i' := if o.flip then rows - 1 - i else i;
    var half := cols / 2;
    var j' := if !o.correction then j else if j < cols - half then j + half else j - (cols - half);
    if o.transpose then (j', i') else (i', j')
  }

  /** Every entry of the laid-out array is the input entry `SourceOf` names. */
  lemma {:induction false} LayoutMovesEntries<T>(o: Options, a: Matrix<T>, i: nat, j: nat)
    requires a.Valid()
    requires i < Layout(o, a).Height() && j < Layout(o, a).width
    ensures var (si, sj) := SourceOf(o, a.Height(), a.width, i, j);
      si < a.Height() && sj < a.width && Layout(o, a).rows[i][j] == a.rows[si][sj]
  {
    var t := TransposeIf(o.transpose, a);
    var s := HalfSwapIf(o.correction, t);
    var i' := FlipSource(o.flip, s, i, j);
    var j' := HalfSwapSource(o.correction, t, i', j);
    assert Layout(o, a).rows[i][j] == t.rows[i'][j'];
    var (si, sj) := SourceOf(o, a.Height(), a.width, i, j);
    assert o.transpose ==> si == j' && sj == i';
    assert !o.transpose ==> si == i' && sj == j';
    if o.transpose {
      assert i' < t.Height() && j' < t.width;
      assert t.rows[i'][j'] == a.rows[j'][i'];
    } else {
      assert t == a;
    }
  }

  /** The row of the flip's input that output row `i` comes from. */
  lemma FlipSource<T>(flip: bool, s: Matrix<T>, i: nat, j: nat) returns (i': nat)
    requires s.Valid() && i < s.Height() && j < s.width
    ensures i' == if flip then s.Height() - 1 - i else i
    ensures i' < s.Height() && FlipIf(flip, s).rows[i][j] == s.rows[i'][j]
  {
    i' := if flip then s.Height() - 1 - i else i;
  }

  /** The column of the half swap's input that output column `j` comes from. */
  lemma HalfSwapSource<T>(correction: bool, t: Matrix<T>, i: nat, j: nat) returns (j': nat)
    requires t.Valid() && i < t.Height() && j < t.width
    ensures j' == if !correction then j
                 else if j < t.width - t.width / 2 then j + t.width / 2
                 else j - (t.width - t.width / 2)
    ensures j' < t.width && HalfSwapIf(correction, t).rows[i][j] == t.rows[i][j']
  {
    var half := t.width / 2;
    j' := if !correction then j else if j < t.width - half then j + half else j - (t.width - half);
  }

  /** The value written for a GDAL coordinate reference: longitude/latitude on WGS84. */
  const WGS84: string := "+proj=longlat +datum=WGS84 +no_defs +ellps=WGS84 +towgs84=0,0,0"

  /** The metadata handed to rasterio. */
  datatype Meta = Meta(driver: string, height: nat, width: nat, transform: Transform,
                       crs: string, count: nat, dtype: string)

  /** A raster ready to be written: file path, band values and metadata. */
  datatype Raster<T> = Raster(path: string, data: Matrix<T>, meta: Meta)

  /** The path written when no output path is given: every ".nc" becomes
      ".tif". A path without ".nc" is kept, so the raster would be written
      over the file it was read from. */
  function DefaultOutPath(path: string): (out: string)
    ensures !Contains(path, ".nc") ==> out == path
    ensures !Contains(out, ".nc")
  {
    NoNcAfterReplace(path);
    ReplaceAbsent(path, ".nc", ".tif");
    Replace(path, ".nc", ".tif")
  }

  /** Replacing with a string that starts like the pattern keeps the first
      character. */
  lemma ReplaceKeepsHead(s: string, pat: string, rep: string)
    requires |pat| > 0 && |rep| > 0 && rep[0] == pat[0] && |s| > 0
    ensures |Replace(s, pat, rep)| > 0 && Replace(s, pat, rep)[0] == s[0]
  {
  }

  /** No ".nc" is left once every ".nc" has become ".tif": the replacement
      cannot start a new occurrence, and the scan finds every old one. */
  lemma {:induction false} NoNcAfterReplace(s: string)
    ensures !Contains(Replace(s, ".nc", ".tif"), ".nc")
    decreases |s|
  {
    if |s| < 3 {
      assert Replace(s, ".nc", ".tif") == s;
    } else if s[..3] == ".nc" {
      NoNcAfterReplace(s[3..]);
      TifThenClean(Replace(s[3..], ".nc", ".tif"));
    } else {
      var rest := Replace(s[1..], ".nc", ".tif");
      NoNcAfterReplace(s[1..]);
      if s[0] == '.' && |rest| >= 2 && rest[0] == 'n' && rest[1] == 'c' {
        ReplaceKeepsHead(s[1..], ".nc", ".tif");
        assert s[1..][..3] != ".nc";
        assert rest == [s[1]] + Replace(s[2..], ".nc", ".tif");
        ReplaceKeepsHead(s[2..], ".nc", ".tif");
        assert false;
      }
      CharThenClean(s[0], rest);
    }
  }

  /** ".tif" followed by a string without ".nc" has none. */
  lemma TifThenClean(rest: string)
    requires !Contains(rest, ".nc")
    ensures !Contains(".tif" + rest, ".nc")
  {
    var r := ".tif" + rest;
    assert r[0] == '.' && r[1] == 't' && r[2] == 'i' && r[3] == 'f';
    forall i | 0 <= i <= |r| - 3
      ensures !OccursAt(r, ".nc", i)
    {
      if i < 4 {
        assert r[i..i + 3][0] == r[i] && r[i..i + 3][1] == r[i + 1];
      } else {
        assert r[i..i + 3] == rest[i - 4..i - 1];
        assert !OccursAt(rest, ".nc", i - 4);
      }
    }
  }

  /** One character in front of a string without ".nc" adds no ".nc" unless
      it is a '.' before "nc". */
  lemma CharThenClean(c: char, rest: string)
    requires !Contains(rest, ".nc")
    requires !(c == '.' && |rest| >= 2 && rest[0] == 'n' && rest[1] == 'c')
    ensures !Contains([c] + rest, ".nc")
  {
    var r := [c] + rest;
    forall i | 0 <= i <= |r| - 3
      ensures !OccursAt(r, ".nc", i)
    {
      if i == 0 {
        assert r[..3][0] == c && r[..3][1] == rest[0] && r[..3][2] == rest[1];
      } else {
        assert r[i..i + 3] == rest[i - 1..i + 2];
        assert !OccursAt(rest, ".nc", i - 1);
      }
    }
  }

  /** A band with no rows or no columns; the layout only exchanges the two
      sizes, so the written band is blank exactly when the selected one is. */
  predicate Blank<T>(a: Matrix<T>) {
    a.Height() == 0 || a.width == 0
  }

  const BlankMessage := "width and height must be at least one"

  /** The conversion. `dtype` is the name of the element type (`str(data.dtype)`).
      Failures follow the code's order: `data[0]` on an empty array; the
      second coordinate of `lat` or `lon` missing; a single row left by
      `data[0]`, whose missing second axis is read by the half swap or the
      metadata; a three-dimensional array that the writer refuses; and a
      band without rows or columns, for which the GeoTIFF driver will not
      create a file. */
  function Netcdf2Tiff<T>(path: string, outPath: Option<string>, o: Options, v: Values<T>,
                          dtype: string, lat: seq<real>, lon: seq<real>): (r: Result<Raster<T>>)
    requires WellFormed(v)
    ensures r.Ok? <==> Reducible(v, o.multidim) && |lat| >= 2 && |lon| >= 2 && !Blank(Selected(v, o.multidim))
    ensures o.multidim && EmptyLeadingAxis(v) ==> r == Err(IndexError("data[0]"))
    ensures !(o.multidim && EmptyLeadingAxis(v)) && |lat| < 2 ==> r == Err(IndexError("lat[1]"))
    ensures !(o.multidim && EmptyLeadingAxis(v)) && |lat| >= 2 && |lon| < 2 ==> r == Err(IndexError("lon[1]"))
    ensures (o.multidim && v.Plane? && !EmptyLeadingAxis(v) && |lat| >= 2 && |lon| >= 2) ==>
      r == Err(IndexError("data.shape[1]"))
    ensures (!o.multidim && v.Stack? && |lat| >= 2 && |lon| >= 2) ==>
      r.Err? && r.error.WriteError?
    ensures (Reducible(v, o.multidim) && |lat| >= 2 && |lon| >= 2 && Blank(Selected(v, o.multidim))) ==>
      r == Err(WriteError(BlankMessage))
    ensures r.Ok? ==> r.value.data.Valid() && r.value.meta.height > 0 && r.value.meta.width > 0
    ensures r.Ok? ==> r.value.meta.height == r.value.data.Height() && r.value.meta.width == r.value.data.width
    ensures r.Ok? ==> r.value.meta.count == 1 && r.value.meta.crs == WGS84
    ensures r.Ok? ==> r.value.meta.driver == "GTiff" && r.value.meta.dtype == dtype
    ensures r.Ok? ==> r.value.path == (if outPath.Some? then outPath.value else DefaultOutPath(path))
    ensures r.Ok? ==> (var corner := CornerOf(lat, lon, o.correction);
      r.value.meta.transform == FromOrigin(corner.west, corner.north, Resolution(lon), Resolution(lat)))
  {
    var out := if outPath.Some? then outPath.value else DefaultOutPath(path);
    if o.multidim && EmptyLeadingAxis(v) then Err(IndexError("data[0]"))
    else if |lat| < 2 then Err(IndexError("lat[1]"))
    else if |lon| < 2 then Err(IndexError("lon[1]"))
    else if o.multidim && v.Plane? then Err(IndexError("data.shape[1]"))
    else if !o.multidim && v.Stack? then Err(WriteError("a single band must be two-dimensional"))
    else
      var a := if o.multidim then v.layers[0] else v.grid;
      if Blank(a) then Err(WriteError(BlankMessage))
      else
        var corner := CornerOf(lat, lon, o.correction);
        var data := Layout(o, a);
        var t := FromOrigin(corner.west, corner.north, Resolution(lon), Resolution(lat));
        Ok(Raster(out, data, Meta("GTiff", data.Height(), data.width, t, WGS84, 1, dtype)))
  }

  /** The array the conversion starts from once `data[0]` is taken. */
  function Selected<T>(v: Values<T>, multidim: bool): (a: Matrix<T>)
    requires WellFormed(v) && Reducible(v, multidim)
    ensures a.Valid()
  {
    if multidim then v.layers[0] else v.grid
  }

  /** The written band is the selected array laid out by the flags, entry by
      entry as `SourceOf` describes, and with the matching shape. */
  lemma ConversionLayout<T>(path: string, outPath: Option<string>, o: Options, v: Values<T>,
                            dtype: string, lat: seq<real>, lon: seq<real>, i: nat, j: nat)
    requires WellFormed(v)
    requires Netcdf2Tiff(path, outPath, o, v, dtype, lat, lon).Ok?
    ensures var a := Selected(v, o.multidim);
      var d := Netcdf2Tiff(path, outPath, o, v, dtype, lat, lon).value.data;
      && (o.transpose ==> d.Height() == a.width && d.width == a.Height())
      && (!o.transpose ==> d.Height() == a.Height() && d.width == a.width)
      && (i < d.Height() && j < d.width ==>
           var (si, sj) := SourceOf(o, a.Height(), a.width, i, j);
           si < a.Height() && sj < a.width && d.rows[i][j] == a.rows[si][sj])
  {
    var a := Selected(v, o.multidim);
    assert Netcdf2Tiff(path, outPath, o, v, dtype, lat, lon).value.data == Layout(o, a);
    if i < Layout(o, a).Height() && j < Layout(o, a).width {
      LayoutMovesEntries(o, a, i, j);
    }
  }

  /** Turning the correction on changes the band only by the half swap (which
      commutes with the flip) and the transform only in its west edge, by
      exactly 180 degrees. */
  lemma CorrectionEffect<T>(path: string, outPath: Option<string>, o: Options, v: Values<T>,
                            dtype: string, lat: seq<real>, lon: seq<real>)
    requires WellFormed(v)
    requires Netcdf2Tiff(path, outPath, o.(correction := false), v, dtype, lat, lon).Ok?
    ensures var plain := Netcdf2Tiff(path, outPath, o.(correction := false), v, dtype, lat, lon).value;
      var fixed := Netcdf2Tiff(path, outPath, o.(correction := true), v, dtype, lat, lon).value;
      && fixed.data == HalfSwap(plain.data)
      && fixed.meta.transform == plain.meta.transform.(c := plain.meta.transform.c - 180.0)
      && fixed.meta.height == plain.meta.height && fixed.meta.width == plain.meta.width
  {
    var a := Selected(v, o.multidim);
    var t := if o.transpose then Transpose(a) else a;
    if o.flip {
      FlipHalfSwapCommute(t);
    }
  }

  /** An example: latitudes 10, 9, 8 and longitudes -10, -9, -8 with
      no flags keep the 3 x 3 array as it is, and the transform has unit
      pixels with its corner at (-10.5, 10.5). */
  lemma UnitGridExample(g: Matrix<int>)
    requires g.Valid() && g.Height() == 3 && g.width == 3
    ensures var r := Netcdf2Tiff("in.nc", None, Options(false, false, false, false), Plane(g),
                                 "int64", [10.0, 9.0, 8.0], [-10.0, -9.0, -8.0]);
      && r.Ok?
      && r.value.data == g
      && r.value.meta.transform == Transform(1.0, 0.0, -10.5, 0.0, -1.0, 10.5)
  {
    var lat := [10.0, 9.0, 8.0];
    var lon := [-10.0, -9.0, -8.0];
    assert Max(lat) == 10.0 by {
      assert Max(lat[1..]) == 9.0 by { assert lat[1..][1..] == [8.0]; }
    }
    assert Min(lon) == -10.0 by {
      assert Min(lon[1..]) == -9.0 by { assert lon[1..][1..] == [-8.0]; }
    }
    assert CornerOf(lat, lon, false) == Corner(-10.5, 10.5);
    assert Layout(Options(false, false, false, false), g) == g;
  }

  /** An example of the correction: the row [a, b, c, d] on
      longitudes 0, 90, 180, 270 becomes [c, d, a, b], and the west edge moves
      from -45 to -225 degrees. */
  lemma CorrectionExample(a: int, b: int, c: int, d: int)
    ensures var r := Netcdf2Tiff("in.nc", None, Options(false, true, false, false),
                                 Plane(Matrix([[a, b, c, d]], 4)), "int64",
                                 [0.0, 1.0], [0.0, 90.0, 180.0, 270.0]);
      && r.Ok?
      && r.value.data.rows == [[c, d, a, b]]
      && r.value.meta.transform.c == -225.0
  {
    var lon := [0.0, 90.0, 180.0, 270.0];
    var m := Matrix([[a, b, c, d]], 4);
    var o := Options(false, true, false, false);
    assert Layout(o, m) == HalfSwap(m);
    HalfSwapRow(a, b, c, d);
    CorrectedWestEdge(lon);
  }

  /** The half swap of the one-row array [a, b, c, d]. */
  lemma HalfSwapRow(a: int, b: int, c: int, d: int)
    ensures HalfSwap(Matrix([[a, b, c, d]], 4)).rows == [[c, d, a, b]]
  {
    var row := [a, b, c, d];
    var m := Matrix([row], 4);
    assert m.Valid();
    var s := HalfSwap(m);
    assert m.rows[0] == row;
    assert s.rows[0] == RotateLeft(row, 2);
    assert RotateLeft(row, 2) == [c, d] + [a, b] == [c, d, a, b];
    assert |s.rows| == 1;
    assert s.rows == [s.rows[0]];
  }

  /** Longitudes 0, 90, 180, 270 put the corrected west edge at -225. */
  lemma CorrectedWestEdge(lon: seq<real>)
    requires lon == [0.0, 90.0, 180.0, 270.0]
    ensures CornerOf([0.0, 1.0], lon, true).west == -225.0
  {
    assert Min(lon) == 0.0 by {
      assert Min(lon[1..]) >= 0.0;
    }
    assert Resolution(lon) == 90.0;
  }

  /** The ungzip step: where the decompressed copy goes, and whether the
      compressed file is deleted afterwards. */
  datatype Ungzip = Ungzip(source: string, target: string, removeSource: bool)

  function UngzipPlan(path: string, remove: bool): (u: Ungzip)
    ensures u.source == path && u.removeSource == remove
    ensures |u.target| <= |path|
  {
    ReplaceShrinks(path, ".gz", "");
    Ungzip(path, Replace(path, ".gz", ""), remove)
  }

  /** A pattern none of whose proper suffixes is also a prefix of it. */
  predicate Borderless(pat: string) {
    forall k :: 0 < k < |pat| ==> pat[k..] != pat[..|pat| - k]
  }

  /** Replacing in `stem + pat`, where `stem` holds no occurrence, touches only
      the final `pat`; an occurrence straddling the seam would need a border. */
  lemma {:induction false} ReplaceSuffix(stem: string, pat: string, rep: string)
    requires |pat| > 0 && Borderless(pat)
    requires !Contains(stem, pat)
    ensures Replace(stem + pat, pat, rep) == stem + rep
    decreases |stem|
  {
    var s := stem + pat;
    if stem == [] {
      assert s == pat && s[|pat|..] == [];
    } else {
      if |stem| >= |pat| {
        assert !OccursAt(stem, pat, 0);
        assert s[..|pat|] == stem[..|pat|];
      } else {
        var k := |stem|;
        assert s[k..|pat|] == pat[..|pat| - k];
        assert pat[k..] != pat[..|pat| - k];
      }
      var t := stem[1..];
      forall i | 0 <= i <= |t| - |pat|
        ensures !OccursAt(t, pat, i)
      {
        assert !OccursAt(stem, pat, i + 1);
        assert t[i..i + |pat|] == stem[i + 1..i + 1 + |pat|];
      }
      ReplaceSuffix(t, pat, rep);
      assert s[1..] == t + pat;
      assert [s[0]] + (t + rep) == stem + rep;
    }
  }

  /** A pattern whose first character never recurs in it has no border: every
      proper suffix starts with a character other than the pattern's first. */
  lemma FreshHeadBorderless(pat: string)
    requires forall k :: 0 < k < |pat| ==> pat[k] != pat[0]
    ensures Borderless(pat)
  {
    forall k | 0 < k < |pat|
      ensures pat[k..] != pat[..|pat| - k]
    {
      assert pat[k..][0] == pat[k] && pat[..|pat| - k][0] == pat[0];
    }
  }

  /** A name ending in ".gz" with no other ".gz" in it loses exactly that suffix;
      a name with no ".gz" at all is its own target, so the code would write
      over the file it is reading. */
  lemma UngzipTarget(stem: string, remove: bool)
    ensures !Contains(stem, ".gz") ==> UngzipPlan(stem + ".gz", remove).target == stem
    ensures !Contains(stem, ".gz") ==> UngzipPlan(stem, remove).target == stem
  {
    if !Contains(stem, ".gz") {
      FreshHeadBorderless(".gz");
      ReplaceSuffix(stem, ".gz", "");
      ReplaceAbsent(stem, ".gz", "");
    }
  }

  /** Removing every ".gz" can join two pieces into a new one: "..gzgz"
      unpacks to ".gz", as Python's `str.replace` gives. */
  lemma UngzipCanLeaveGz(remove: bool)
    ensures UngzipPlan("..gzgz", remove).target == ".gz"
  {
    var s := "..gzgz";
    assert s[..3][1] != ".gz"[1];
    assert s[1..] == ".gzgz" && s[1..][..3] == ".gz";
    assert s[1..][3..] == "gz";
    assert Replace("gz", ".gz", "") == "gz";
    assert Replace(s[1..], ".gz", "") == "gz";
    assert Replace(s, ".gz", "") == ['.'] + "gz";
  }

  /** A name ending in ".nc" with no other ".nc" in it gets ".tif" in its place. */
  lemma DefaultOutPathSuffix(stem: string)
    requires !Contains(stem, ".nc")
    ensures DefaultOutPath(stem + ".nc") == stem + ".tif"
  {
    FreshHeadBorderless(".nc");
    ReplaceSuffix(stem, ".nc", ".tif");
  }
}

=== FILE: dates.dfy ===
/** The calendar date-times the download functions receive, and the
    `strftime` directives they format them with.

    A Python `datetime` becomes the record `Date`; the day of the year that
    `%j` prints is computed from it with the Gregorian leap-year rule.
 */
module Dates {
  import opened Errors
  import opened Text

  datatype Date = Date(year: int, month: int, day: int, hour: int, minute: int, second: int)

  predicate IsLeapYear(y: int) {
    y % 4 == 0 && (y % 100 != 0 || y % 400 == 0)
  }

  function YearLength(y: int): int {
    if IsLeapYear(y) then 366 else 365
  }

  function DaysInMonth(y: int, m: int): int
    requires 1 <= m <= 12
  {
    if m == 2 then (if IsLeapYear(y) then 29 else 28)
    else if m == 4 || m == 6 || m == 9 || m == 11 then 30
    else 31
  }

  /** What a `datetime` can hold: years 1 to 9999 and in-range fields. */
  predicate Valid(d: Date) {
    && 1 <= d.year <= 9999
    && 1 <= d.month <= 12
    && 1 <= d.day <= DaysInMonth(d.year, d.month)
    && 0 <= d.hour < 24
    && 0 <= d.minute < 60
    && 0 <= d.second < 60
  }

  /** Days in the months of year `y` before month `m`. */
  function DaysBefore(y: int, m: int): nat
    requires 1 <= m <= 13
  {
    if m == 1 then 0 else DaysBefore(y, m - 1) + DaysInMonth(y, m - 1)
  }

  lemma DaysBeforeMonotone(y: int, m: int, m': int)
    requires 1 <= m <= m' <= 13
    ensures DaysBefore(y, m) <= DaysBefore(y, m')
  {
  }

  lemma DaysBeforeNewYear(y: int)
    ensures DaysBefore(y, 13) == YearLength(y)
  {
    assert DaysBefore(y, 2) == 31;
    assert DaysBefore(y, 3) == 31 + DaysInMonth(y, 2);
    assert DaysBefore(y, 4) == DaysBefore(y, 3) + 31;
    assert DaysBefore(y, 5) == DaysBefore(y, 3) + 61;
    assert DaysBefore(y, 6) == DaysBefore(y, 3) + 92;
    assert DaysBefore(y, 7) == DaysBefore(y, 3) + 122;
    assert DaysBefore(y, 8) == DaysBefore(y, 3) + 153;
    assert DaysBefore(y, 9) == DaysBefore(y, 3) + 184;
    assert DaysBefore(y, 10) == DaysBefore(y, 3) + 214;
    assert DaysBefore(y, 11) == DaysBefore(y, 3) + 245;
    assert DaysBefore(y, 12) == DaysBefore(y, 3) + 275;
  }

  /** The ordinal day that `%j` prints: 1 on January 1st, and at most the
      length of the year. */
  function DayOfYear(d: Date): (j: int)
    requires Valid(d)
    ensures 1 <= j <= YearLength(d.year)
    ensures d.month == 1 ==> j == d.day
  {
    DaysBeforeMonotone(d.year, d.month + 1, 13);
    DaysBeforeNewYear(d.year);
    DaysBefore(d.year, d.month) + d.day
  }

  /** Within one year, the ordinal day determines month and day. */
  lemma DayOfYearInjective(d1: Date, d2: Date)
    requires Valid(d1) && Valid(d2) && d1.year == d2.year
    ensures DayOfYear(d1) == DayOfYear(d2) <==> d1.month == d2.month && d1.day == d2.day
  {
    if d1.month < d2.month {
      DaysBeforeMonotone(d1.year, d1.month + 1, d2.month);
    } else if d2.month < d1.month {
      DaysBeforeMonotone(d1.year, d2.month + 1, d1.month);
    }
  }

  /** Seconds elapsed since midnight. */
  function SecondOfDay(d: Date): (s: nat)
    requires Valid(d)
    ensures s < 86400
  {
    d.hour * 3600 + d.minute * 60 + d.second
  }

  // The numeric strftime directives: each is a zero-padded decimal field.

  /** `%Y` */
  function Year4(d: Date): (s: string)
    requires Valid(d)
    ensures |s| == 4 && AllDigits(s) && Value(s) == d.year
  {
    Pad(d.year, 4)
  }

  /** `%m` */
  function Month2(d: Date): (s: string)
    requires Valid(d)
    ensures |s| == 2 && AllDigits(s) && Value(s) == d.month
  {
    Pad(d.month, 2)
  }

  /** `%d` */
  function Day2(d: Date): (s: string)
    requires Valid(d)
    ensures |s| == 2 && AllDigits(s) && Value(s) == d.day
  {
    Pad(d.day, 2)
  }

  /** `%H` */
  function Hour2(d: Date): (s: string)
    requires Valid(d)
    ensures |s| == 2 && AllDigits(s) && Value(s) == d.hour
  {
    Pad(d.hour, 2)
  }

  /** `%M` */
  function Minute2(d: Date): (s: string)
    requires Valid(d)
    ensures |s| == 2 && AllDigits(s) && Value(s) == d.minute
  {
    Pad(d.minute, 2)
  }

  /** `%j` */
  function YearDay3(d: Date): (s: string)
    requires Valid(d)
    ensures |s| == 3 && AllDigits(s) && Value(s) == DayOfYear(d)
  {
    Pad(DayOfYear(d), 3)
  }

  /** `%Y%m%d` */
  function CompactDate(d: Date): (s: string)
    requires Valid(d)
    ensures |s| == 8 && AllDigits(s)
  {
    Year4(d) + Month2(d) + Day2(d)
  }

  /** The eight digits of `%Y%m%d` spell the number `YYYYMMDD`. */
  lemma CompactDateValue(d: Date)
    requires Valid(d)
    ensures AllDigits(CompactDate(d))
    ensures Value(CompactDate(d)) == d.year * 10000 + d.month * 100 + d.day
  {
    assert Pow10(2) == 100;
    assert Pow10(4) == 10000;
    ValueAppend(Year4(d), Month2(d));
    ValueAppend(Year4(d) + Month2(d), Day2(d));
  }

  /** The eight-digit stamp gives back the year, month and day it was made from. */
  lemma CompactDateRoundTrip(d: Date)
    requires Valid(d)
    ensures var s := CompactDate(d);
      Value(s[..4]) == d.year && Value(s[4..6]) == d.month && Value(s[6..]) == d.day
  {
    var s := CompactDate(d);
    assert s[..4] == Year4(d);
    assert s[4..6] == Month2(d);
    assert s[6..] == Day2(d);
  }

  /** `%H%M%S` of the moment `secs` seconds after midnight. */
  function Clock(secs: nat): (s: string)
    requires secs < 86400
    ensures |s| == 6 && AllDigits(s)
  {
    Pad(secs / 3600, 2) + Pad(secs / 60 % 60, 2) + Pad(secs % 60, 2)
  }

  /** Reads a six-digit `HHMMSS` stamp as seconds after midnight. */
  function ClockValue(s: string): nat
    requires |s| == 6 && AllDigits(s)
  {
    Value(s[..2]) * 3600 + Value(s[2..4]) * 60 + Value(s[4..])
  }

  /** Reading the six digits back as hours, minutes and seconds recovers the moment. */
  lemma ClockRoundTrip(secs: nat)
    requires secs < 86400
    ensures ClockValue(Clock(secs)) == secs
  {
    var s := Clock(secs);
    assert s[..2] == Pad(secs / 3600, 2);
    assert s[2..4] == Pad(secs / 60 % 60, 2);
    assert s[4..] == Pad(secs % 60, 2);
  }

  /** `%H%M%S` of the date itself. */
  function StartClock(d: Date): (s: string)
    requires Valid(d)
    ensures |s| == 6 && AllDigits(s)
  {
    Clock(SecondOfDay(d))
  }

  /** The moment `secs` seconds after midnight on the day of `d`. */
  function AtSecond(d: Date, secs: nat): (e: Date)
    requires Valid(d) && secs < 86400
    ensures Valid(e) && SecondOfDay(e) == secs
    ensures e.year == d.year && e.month == d.month && e.day == d.day
  {
    assert secs == secs / 3600 * 3600 + secs / 60 % 60 * 60 + secs % 60;
    Date(d.year, d.month, d.day, secs / 3600, secs / 60 % 60, secs % 60)
  }

  /** Midnight of the following day, or nothing after December 31st of the
      last year a `datetime` can hold. */
  function NextDay(d: Date): (r: Option<Date>)
    requires Valid(d)
    ensures r.None? <==> d.year == 9999 && d.month == 12 && d.day == 31
    ensures r.Some? ==> Valid(r.value) && SecondOfDay(r.value) == 0
    ensures r.Some? && d.year == r.value.year ==> DayOfYear(r.value) == DayOfYear(d) + 1
    ensures r.Some? && d.year != r.value.year ==>
      r.value.year == d.year + 1 && DayOfYear(r.value) == 1 && DayOfYear(d) == YearLength(d.year)
  {
    if d.day < DaysInMonth(d.year, d.month) then
      Some(Date(d.year, d.month, d.day + 1, 0, 0, 0))
    else if d.month < 12 then
      Some(Date(d.year, d.month + 1, 1, 0, 0, 0))
    else if d.year < 9999 then
      DaysBeforeNewYear(d.year);
      Some(Date(d.year + 1, 1, 1, 0, 0, 0))
    else None
  }

  /** `d + timedelta(seconds=1799)`, or nothing when the sum passes the last
      moment a `datetime` can hold (Python raises `OverflowError` there). */
  function HalfHourLater(d: Date): (r: Option<Date>)
    requires Valid(d)
    ensures r.None? <==> d.year == 9999 && d.month == 12 && d.day == 31 && SecondOfDay(d) + 1799 >= 86400
    ensures r.Some? ==> Valid(r.value) && SecondOfDay(r.value) == (SecondOfDay(d) + 1799) % 86400
    ensures r.Some? && SecondOfDay(d) + 1799 < 86400 ==>
      r.value.year == d.year && r.value.month == d.month && r.value.day == d.day
    ensures r.Some? && SecondOfDay(d) + 1799 >= 86400 ==>
      r.value == AtSecond(NextDay(d).value, SecondOfDay(d) + 1799 - 86400)
  {
    var secs := SecondOfDay(d) + 1799;
    if secs < 86400 then Some(AtSecond(d, secs))
    else
      var next := NextDay(d);
      if next.None? then None else Some(AtSecond(next.value, secs - 86400))
  }

  /** `%H%M%S` of `d + timedelta(seconds=1799)`. The clock wraps past
      midnight; the date part of the sum is not printed, but the sum must
      exist (see `HalfHourLater`, and `EndClockOfHalfHourLater`). */
  function EndClock(d: Date): (s: string)
    requires Valid(d)
    ensures |s| == 6 && AllDigits(s)
  {
    Clock((SecondOfDay(d) + 1799) % 86400)
  }

  /** The end stamp is the start stamp of the moment 1799 seconds later. */
  lemma EndClockOfHalfHourLater(d: Date)
    requires Valid(d) && HalfHourLater(d).Some?
    ensures EndClock(d) == StartClock(HalfHourLater(d).value)
  {
  }

  /** The half-hour window stamps end 29 minutes 59 seconds after they start,
      modulo a day. */
  lemma HalfHourWindow(d: Date)
    requires Valid(d)
    ensures ClockValue(StartClock(d)) == SecondOfDay(d)
    ensures ClockValue(EndClock(d)) == (ClockValue(StartClock(d)) + 1799) % 86400
  {
    ClockRoundTrip(SecondOfDay(d));
    ClockRoundTrip((SecondOfDay(d) + 1799) % 86400);
  }

  /** The selector `strftime("%Y-%m-%d %M:00")` that every product passes to
      the NetCDF conversion: the minute is printed where the hour belongs. */
  function TimeKey(d: Date): (s: string)
    requires Valid(d)
    ensures |s| == 16
    ensures s[4] == '-' && s[7] == '-' && s[10] == ' ' && s[13..] == ":00"
  {
    Year4(d) + "-" + Month2(d) + "-" + Day2(d) + " " + Minute2(d) + ":00"
  }

  /** The key does not depend on the hour: two moments of one day that share
      their minute select the same time stamp. */
  lemma TimeKeyIgnoresHour(d: Date, h: int)
    requires Valid(d) && 0 <= h < 24
    ensures TimeKey(d.(hour := h)) == TimeKey(d)
  {
  }

  /** The two characters in the hour position of the key spell the minute. */
  lemma TimeKeyHourSlot(d: Date)
    requires Valid(d)
    ensures Value(TimeKey(d)[11..13]) == d.minute
  {
    assert TimeKey(d)[11..13] == Minute2(d);
  }
}

=== FILE: errors.dfy ===
/** Failure values shared by every module of the model.

    Each way the Python code fails becomes one constructor of `Error`:
    - `raise ValueError(msg)` for rejected arguments;
    - `raise(msg)` with a plain string, which Python 3 refuses to raise and
      turns into a `TypeError`; the constructor keeps the message the author
      meant to report;
    - `raise Exception(msg)` for failed PERSIANN server requests;
    - a name read before any branch assigned it (`UnboundLocalError`), and an
      index past the end of an array or a shape tuple (`IndexError`);
    - an attribute the object does not have (`AttributeError`);
    - date arithmetic past the last day `datetime` can hold (`OverflowError`);
    - rasterio refusing to write an array that is not two-dimensional as a
      single band, or GDAL refusing to create a file for a band without rows
      or columns (`WriteError`; neither library is part of this model, so
      only the reason is kept).
 */
module Errors {

  datatype Error =
    | ValueError(message: string)
    | TypeError(intended: string)
    | Exception(message: string)
    | UnboundLocal(name: string)
    | IndexError(what: string)
    | AttributeError(name: string)
    | OverflowError(message: string)
    | WriteError(reason: string)

  /** Either a value or the error that interrupted the computation. */
  datatype Result<+T> = Ok(value: T) | Err(error: Error) {

    predicate IsFailure() {
      Err?
    }

    function PropagateFailure<U>(): Result<U>
      requires Err?
    {
      Err(error)
    }

    function Extract(): T
      requires Ok?
    {
      value
    }
  }

  /** The value of an optional argument that Python spells `None`. */
  datatype Option<+T> = None | Some(value: T)

  /** A check that passes or reports the first error. */
  datatype Check = Pass | Fail(error: Error)
}

=== FILE: grid.dfy ===
/** The two-dimensional arrays that `netcdf2TIFF` rearranges before it writes
    a raster, and the three rearrangements it applies.

    A `Matrix` is a numpy array of shape `(height, width)`: a sequence of rows
    that all have `width` entries. The width is kept even when there are no
    rows, as numpy keeps it, so that transposing twice always restores the
    shape.
 */
module Grids {

  datatype Matrix<T> = Matrix(rows: seq<seq<T>>, width: nat) {

    function Height(): nat {
      |rows|
    }

    predicate Valid() {
      forall i :: 0 <= i < |rows| ==> |rows[i]| == width
    }
  }

  /** `np.transpose`: entry `(i, j)` of the result is entry `(j, i)` of `a`. */
  function Transpose<T>(a: Matrix<T>): (t: Matrix<T>)
    requires a.Valid()
    ensures t.Valid()
    ensures t.Height() == a.width && t.width == a.Height()
    ensures forall i, j :: 0 <= i < t.Height() && 0 <= j < t.width ==> t.rows[i][j] == a.rows[j][i]
  {
    Matrix(seq(a.width, j requires 0 <= j < a.width => seq(|a.rows|, i requires 0 <= i < |a.rows| => a.rows[i][j])), |a.rows|)
  }

  /** Transposing twice gives back the array. */
  lemma TransposeInvolution<T>(a: Matrix<T>)
    requires a.Valid()
    ensures Transpose(Transpose(a)) == a
  {
    var b := Transpose(Transpose(a));
    assert |b.rows| == |a.rows|;
    forall i | 0 <= i < |a.rows|
      ensures b.rows[i] == a.rows[i]
    {
    }
  }

  /** The row `r` turned left by `k` places. */
  function RotateLeft<T>(r: seq<T>, k: nat): seq<T>
    requires k <= |r|
  {
    r[k..] + r[..k]
  }

  /** The longitude correction `np.hstack((a[:, m:], a[:, :m]))` with
      `m = width // 2`: every row is turned left by half the width. */
  function HalfSwap<T>(a: Matrix<T>): (s: Matrix<T>)
    requires a.Valid()
    ensures s.Valid()
    ensures s.Height() == a.Height() && s.width == a.width
    ensures forall i, j :: 0 <= i < s.Height() && 0 <= j < a.width - a.width / 2 ==>
      s.rows[i][j] == a.rows[i][j + a.width / 2]
    ensures forall i, j :: 0 <= i < s.Height() && a.width - a.width / 2 <= j < a.width ==>
      s.rows[i][j] == a.rows[i][j - (a.width - a.width / 2)]
  {
    Matrix(seq(|a.rows|, i requires 0 <= i < |a.rows| => RotateLeft(a.rows[i], a.width / 2)), a.width)
  }

  /** The half swap only moves values within a row: each row keeps its
      multiset of values. */
  lemma HalfSwapKeepsRowValues<T>(a: Matrix<T>)
    requires a.Valid()
    ensures forall i :: 0 <= i < a.Height() ==> multiset(HalfSwap(a).rows[i]) == multiset(a.rows[i])
  {
    var m := a.width / 2;
    var s := HalfSwap(a);
    forall i | 0 <= i < a.Height()
      ensures multiset(s.rows[i]) == multiset(a.rows[i])
    {
      assert s.rows[i] == a.rows[i][m..] + a.rows[i][..m];
      assert a.rows[i] == a.rows[i][..m] + a.rows[i][m..];
    }
  }

  /** On an even width the two halves trade places, so swapping twice gives
      back the array. */
  lemma HalfSwapInvolution<T>(a: Matrix<T>)
    requires a.Valid() && a.width % 2 == 0
    ensures HalfSwap(HalfSwap(a)) == a
  {
    var b := HalfSwap(HalfSwap(a));
    var w := a.width;
    forall i | 0 <= i < |a.rows|
      ensures b.rows[i] == a.rows[i]
    {
      forall j | 0 <= j < w
        ensures b.rows[i][j] == a.rows[i][j]
      {
      }
    }
  }

  /** On an odd width the halves are unequal, and two swaps turn each row
      right by one place instead of restoring it. */
  lemma HalfSwapTwiceOdd<T>(a: Matrix<T>)
    requires a.Valid() && a.width % 2 == 1
    ensures var b := HalfSwap(HalfSwap(a));
      && (forall i, j :: 0 <= i < a.Height() && 1 <= j < a.width ==> b.rows[i][j] == a.rows[i][j - 1])
      && (forall i :: 0 <= i < a.Height() ==> b.rows[i][0] == a.rows[i][a.width - 1])
  {
  }

  /** `np.flip(a, 0)`: the rows in reverse order, each row untouched. */
  function Flip<T>(a: Matrix<T>): (f: Matrix<T>)
    requires a.Valid()
    ensures f.Valid()
    ensures f.Height() == a.Height() && f.width == a.width
    ensures forall i :: 0 <= i < f.Height() ==> f.rows[i] == a.rows[a.Height() - 1 - i]
  {
    Matrix(seq(|a.rows|, i requires 0 <= i < |a.rows| => a.rows[|a.rows| - 1 - i]), a.width)
  }

  /** Flipping twice gives back the array. */
  lemma FlipInvolution<T>(a: Matrix<T>)
    requires a.Valid()
    ensures Flip(Flip(a)) == a
  {
    var b := Flip(Flip(a));
    assert |b.rows| == |a.rows|;
    forall i | 0 <= i < |a.rows|
      ensures b.rows[i] == a.rows[i]
    {
    }
  }

  /** The flip reorders whole rows and the half swap acts inside each row, so
      the order of these two steps does not matter. */
  lemma FlipHalfSwapCommute<T>(a: Matrix<T>)
    requires a.Valid()
    ensures Flip(HalfSwap(a)) == HalfSwap(Flip(a))
  {
    var x := Flip(HalfSwap(a));
    var y := HalfSwap(Flip(a));
    assert |x.rows| == |y.rows|;
    forall i | 0 <= i < |x.rows|
      ensures x.rows[i] == y.rows[i]
    {
    }
  }

  /** Transposition and the half swap do not commute: on the 2 x 4 array
      [[0, 1, 2, 3], [4, 5, 6, 7]] the two orders already disagree in their
      first entry, so the order the conversion uses matters. */
  lemma TransposeHalfSwapOrderMatters()
    ensures var a := Matrix([[0, 1, 2, 3], [4, 5, 6, 7]], 4);
      HalfSwap(Transpose(a)) != Transpose(HalfSwap(a))
  {
    var a := Matrix([[0, 1, 2, 3], [4, 5, 6, 7]], 4);
    var p := HalfSwap(Transpose(a));
    var q := Transpose(HalfSwap(a));
    assert p.rows[0][0] == a.rows[1][0] == 4;
    assert q.rows[0][0] == a.rows[0][2] == 2;
  }
}

=== FILE: imerg.dfy ===
/** `IMERG.download` (meteosatpy/imerg.py): check the arguments, pick the
    OPeNDAP URL, variable name and layout for the requested version, run and
    timestep, then describe the conversion and the clip.

    The HTTP requests are not modelled: whether the Earthdata login and the
    data request returned status 200 are the parameters `accepted` and
    `fetched`.
 */
module Imerg {
  import opened Errors
  import opened Text
  import opened Dates
  import opened Utils
  import opened Plans
  import Convert

  const VersionMessage := "Invalid product version. Please provide 'v06', or 'v07'."
  const RunMessage := "Invalid run. Please provide 'early', 'late', or 'final'."
  const TimestepMessage := "Invalid timestep. Please provide '30min', 'daily', or 'monthly'."
  const ExtentMessage := "Invalid extent. Please provide a list with coordinates: 'north', 'south', 'east', 'west'."
  const MonthlyMessage := "IMERG late- and early-run data do not include monthly information."
  const DownloadMessage := "Error occurred while downloading"
  const OverflowMessage := "date value out of range"

  const Server := "https://gpm1.gesdisc.eosdis.nasa.gov/opendap/GPM_L3"
  const Server2 := "https://gpm1.gesdisc.eosdis.nasa.gov/opendap/hyrax/GPM_L3"

  const MissingLoginMessage := "Username or password for Earth Data Explorer Account not provided."

  /** The constructor: both credentials must be given, and the Earthdata
      login must answer 200 (`accepted`); only then are the credentials
      written to the user's `.netrc`, which is not modelled. On a rejected
      login the message is never built: formatting it calls `read()` on the
      `requests` response, which has no such method, so the constructor
      fails with `AttributeError` before it reaches its own `raise`. */
  function Login(user: Option<string>, password: Option<string>, accepted: bool): (c: Check)
    ensures c.Pass? <==> user.Some? && password.Some? && accepted
    ensures user.None? || password.None? ==> c == Fail(TypeError(MissingLoginMessage))
    ensures user.Some? && password.Some? && !accepted ==> c == Fail(AttributeError("read"))
  {
    if user.None? || password.None? then Fail(TypeError(MissingLoginMessage))
    else if !accepted then Fail(AttributeError("read"))
    else Pass
  }

  predicate KnownVersion(version: string) {
    version == "v06" || version == "v07"
  }

  predicate KnownRun(run: string) {
    run == "early" || run == "late" || run == "final"
  }

  predicate KnownTimestep(timestep: string) {
    timestep == "30min" || timestep == "daily" || timestep == "monthly"
  }

  /** The four argument checks, in the code's order; the first that fails
      decides the `ValueError`. */
  function Validate(version: string, run: string, timestep: string, extent: Option<seq<real>>): (c: Check)
    ensures c.Pass? <==> KnownVersion(version) && KnownRun(run) && KnownTimestep(timestep) && ExtentOk(extent)
    ensures !KnownVersion(version) ==> c == Fail(ValueError(VersionMessage))
    ensures KnownVersion(version) && !KnownRun(run) ==> c == Fail(ValueError(RunMessage))
    ensures KnownVersion(version) && KnownRun(run) && !KnownTimestep(timestep) ==>
      c == Fail(ValueError(TimestepMessage))
    ensures KnownVersion(version) && KnownRun(run) && KnownTimestep(timestep) && !ExtentOk(extent) ==>
      c == Fail(ValueError(ExtentMessage))
  {
    if !(version in ["v06", "v07"]) then Fail(ValueError(VersionMessage))
    else if !(run in ["early", "late", "final"]) then Fail(ValueError(RunMessage))
    else if !(timestep in ["30min", "daily", "monthly"]) then Fail(ValueError(TimestepMessage))
    else if extent.Some? && |extent.value| != 4 then Fail(ValueError(ExtentMessage))
    else Pass
  }

  /** What the URL table selects. */
  datatype Request = Request(url: string, varName: string, multidim: bool)

  /** The half hour that starts at `d`, as the file names write it: its
      first and last second as `HHMMSS`, then the minute-of-day code. */
  function Window(d: Date): (w: string)
    requires Valid(d)
    ensures |w| == 21 && w[..2] == "-S" && w[8..10] == "-E" && w[16] == '.'
    ensures w[2..8] == StartClock(d) && w[10..16] == EndClock(d) && w[17..] == MinCode(d)
  {
    WindowFields(StartClock(d), EndClock(d), MinCode(d));
    "-S" + StartClock(d) + "-E" + EndClock(d) + "." + MinCode(d)
  }

  /** Each field of the window reads back: the start as the second of the
      day, the end 1799 seconds later on the clock, and the code as the
      minute of the day. */
  lemma WindowReadsBack(d: Date)
    requires Valid(d)
    ensures var w := Window(d);
      && AllDigits(w[2..8]) && ClockValue(w[2..8]) == SecondOfDay(d)
      && AllDigits(w[10..16]) && ClockValue(w[10..16]) == (SecondOfDay(d) + 1799) % 86400
      && AllDigits(w[17..]) && Value(w[17..]) == d.hour * 60 + d.minute
  {
    HalfHourWindow(d);
  }

  /** Where the three stamps of a window sit. */
  lemma WindowFields(start: string, end: string, code: string)
    requires |start| == 6 && |end| == 6 && |code| == 4
    ensures var w := "-S" + start + "-E" + end + "." + code;
      && |w| == 21 && w[..2] == "-S" && w[8..10] == "-E" && w[16] == '.'
      && w[2..8] == start && w[10..16] == end && w[17..] == code
  {
    var w := "-S" + start + "-E" + end + "." + code;
    assert w[2..8] == start;
    assert w[10..16] == end;
    assert w[17..] == code;
  }

  /** A half-hourly granule of collection `GPM_3IMERG{collection}`, filed
      under the year and the day of the year; `tag` is "" for the final run
      and "-L" or "-E" for the late and early runs. */
  function HalfHourlyUrl(server: string, collection: string, tag: string, d: Date, vv: string): (url: string)
    requires Valid(d)
    ensures Joins(url, server + "/GPM_3IMERG" + collection + "." + vv + "/" + Year4(d) + "/" + YearDay3(d),
                  "/3B-HHR" + tag + ".MS.MRG.3IMERG." + CompactDate(d) + Window(d) + ".",
                  "V" + vv + "B.HDF5.nc4?")
  {
    var dir := server + "/GPM_3IMERG" + collection + "." + vv + "/" + Year4(d) + "/" + YearDay3(d);
    var file := "/3B-HHR" + tag + ".MS.MRG.3IMERG." + CompactDate(d) + Window(d) + ".";
    Pieces(dir, file, "V" + vv + "B.HDF5.nc4?");
    dir + file + ("V" + vv + "B.HDF5.nc4?")
  }

  /** A daily granule, filed under the year and the month; `suffix` is what
      follows the version digits before the query mark. */
  function DailyUrl(collection: string, tag: string, d: Date, vv: string, suffix: string): (url: string)
    requires Valid(d)
    ensures Joins(url, Server + "/GPM_3IMERG" + collection + "." + vv + "/" + Year4(d) + "/" + Month2(d),
                  "/3B-DAY" + tag + ".MS.MRG.3IMERG." + CompactDate(d) + "-S000000-E235959.V" + vv,
                  suffix + "?")
  {
    var dir := Server + "/GPM_3IMERG" + collection + "." + vv + "/" + Year4(d) + "/" + Month2(d);
    var file := "/3B-DAY" + tag + ".MS.MRG.3IMERG." + CompactDate(d) + "-S000000-E235959.V" + vv;
    Pieces(dir, file, suffix + "?");
    dir + file + (suffix + "?")
  }

  /** The monthly granule of the final run, filed under the year and named
      by the first day of the month and, once more, by the month. */
  function MonthlyUrl(d: Date, vv: string): (url: string)
    requires Valid(d)
    ensures Joins(url, Server + "/GPM_3IMERGM." + vv + "/" + Year4(d),
                  "/3B-MO.MS.MRG.3IMERG." + Year4(d) + Month2(d) + "01-S000000-E235959." + Month2(d) + ".",
                  "V" + vv + "B.HDF5.nc4?")
  {
    var dir := Server + "/GPM_3IMERGM." + vv + "/" + Year4(d);
    var file := "/3B-MO.MS.MRG.3IMERG." + Year4(d) + Month2(d) + "01-S000000-E235959." + Month2(d) + ".";
    Pieces(dir, file, "V" + vv + "B.HDF5.nc4?");
    dir + file + ("V" + vv + "B.HDF5.nc4?")
  }

  /** Two half-hourly URLs of one collection name the same file exactly when
      they are for the same moment: the date and the start of the window
      are read back from the name. */
  lemma HalfHourlyUrlIdentifiesMoment(server: string, collection: string, tag: string, vv: string, d1: Date, d2: Date)
    requires Valid(d1) && Valid(d2)
    ensures HalfHourlyUrl(server, collection, tag, d1, vv) == HalfHourlyUrl(server, collection, tag, d2, vv) <==> d1 == d2
  {
    var u := HalfHourlyUrl(server, collection, tag, d1, vv);
    if u == HalfHourlyUrl(server, collection, tag, d2, vv) {
      var lead := "/3B-HHR" + tag + ".MS.MRG.3IMERG.";
      var f1 := lead + CompactDate(d1) + Window(d1) + ".";
      var f2 := lead + CompactDate(d2) + Window(d2) + ".";
      var k := |server + "/GPM_3IMERG" + collection + "." + vv + "/"| + 8;
      assert f1 == u[k..|u| - |"V" + vv + "B.HDF5.nc4?"|] == f2;
      HalfHourlyFile(lead, d1);
      HalfHourlyFile(lead, d2);
      SameStamp(d1, d2);
      HalfHourWindow(d1);
      HalfHourWindow(d2);
      SameSecond(d1, d2);
    }
  }

  /** Where the date and the start clock sit in a half-hourly file name. */
  lemma HalfHourlyFile(lead: string, d: Date)
    requires Valid(d)
    ensures var f := lead + CompactDate(d) + Window(d) + ".";
      && |f| == |lead| + 30
      && f[|lead|..|lead| + 8] == CompactDate(d) && f[|lead| + 10..|lead| + 16] == StartClock(d)
  {
    StampAndWindow(lead, CompactDate(d), Window(d));
  }

  /** Where an eight-character stamp and a 21-character window sit after
      `lead`. */
  lemma StampAndWindow(lead: string, stamp: string, w: string)
    requires |stamp| == 8 && |w| == 21
    ensures var f := lead + stamp + w + ".";
      && |f| == |lead| + 30 && f[|lead|..|lead| + 8] == stamp && f[|lead| + 10..|lead| + 16] == w[2..8]
  {
    var f := lead + stamp + w + ".";
    var m := |lead|;
    assert f[m..m + 8] == stamp;
    assert f[m + 8..m + 29] == w;
    assert f[m + 10..m + 16] == w[2..8];
  }

  /** Two daily URLs of one collection name the same file exactly when they
      are for the same day. */
  lemma DailyUrlIdentifiesDay(collection: string, tag: string, vv: string, suffix: string, d1: Date, d2: Date)
    requires Valid(d1) && Valid(d2)
    ensures DailyUrl(collection, tag, d1, vv, suffix) == DailyUrl(collection, tag, d2, vv, suffix) <==>
      d1.year == d2.year && d1.month == d2.month && d1.day == d2.day
  {
    var u1 := DailyUrl(collection, tag, d1, vv, suffix);
    var u2 := DailyUrl(collection, tag, d2, vv, suffix);
    if u1 == u2 {
      var k := |Server + "/GPM_3IMERG" + collection + "." + vv + "/"| + 4 + 1 + 2;
      var n := |suffix + "?"|;
      var lead := "/3B-DAY" + tag + ".MS.MRG.3IMERG.";
      var f1 := lead + CompactDate(d1) + "-S000000-E235959.V" + vv;
      var f2 := lead + CompactDate(d2) + "-S000000-E235959.V" + vv;
      assert f1 == u1[k..|u1| - n] == f2;
      var m := |lead|;
      assert f1[m..m + 8] == CompactDate(d1) && f2[m..m + 8] == CompactDate(d2);
      SameStamp(d1, d2);
    }
  }

  /** Two monthly URLs name the same file exactly when they are for the same
      month. */
  lemma MonthlyUrlIdentifiesMonth(vv: string, d1: Date, d2: Date)
    requires Valid(d1) && Valid(d2)
    ensures MonthlyUrl(d1, vv) == MonthlyUrl(d2, vv) <==> d1.year == d2.year && d1.month == d2.month
  {
    var u1 := MonthlyUrl(d1, vv);
    var u2 := MonthlyUrl(d2, vv);
    if u1 == u2 {
      var k := |Server + "/GPM_3IMERGM." + vv + "/"|;
      assert u1[k..k + 4] == Year4(d1) && u2[k..k + 4] == Year4(d2);
      var n := |"V" + vv + "B.HDF5.nc4?"|;
      var lead := "/3B-MO.MS.MRG.3IMERG.";
      var f1 := lead + Year4(d1) + Month2(d1) + "01-S000000-E235959." + Month2(d1) + ".";
      var f2 := lead + Year4(d2) + Month2(d2) + "01-S000000-E235959." + Month2(d2) + ".";
      assert f1 == u1[k + 4..|u1| - n] == f2;
      var m := |lead| + 4;
      assert f1[m..m + 2] == Month2(d1) && f2[m..m + 2] == Month2(d2);
    }
  }

  /** Equal `%Y%m%d` stamps come from the same day. */
  lemma SameStamp(d1: Date, d2: Date)
    requires Valid(d1) && Valid(d2) && CompactDate(d1) == CompactDate(d2)
    ensures d1.year == d2.year && d1.month == d2.month && d1.day == d2.day
  {
    CompactDateValue(d1);
    CompactDateValue(d2);
  }

  /** Equal seconds of the day on the same day are the same moment. */
  lemma SameSecond(d1: Date, d2: Date)
    requires Valid(d1) && Valid(d2) && SecondOfDay(d1) == SecondOfDay(d2)
    requires d1.year == d2.year && d1.month == d2.month && d1.day == d2.day
    ensures d1 == d2
  {
  }

  /** The URL table: the version digits, the variable name, the URL and
      whether the file has an extra leading axis, for each run and
      timestep. Half-hourly files of the late and early runs sit on the
      second server; everything else on the first. */
  function Select(d: Date, version: string, run: string, timestep: string): (r: Result<Request>)
    requires Valid(d) && KnownVersion(version) && KnownRun(run) && KnownTimestep(timestep)
    ensures r.Err? <==> run != "final" && timestep == "monthly"
    ensures r.Err? ==> r.error == TypeError(MonthlyMessage)
    ensures r.Ok? ==> (r.value.varName ==
      if version == "v06" && timestep != "monthly" then "precipitationCal" else "precipitation")
    ensures r.Ok? ==> (r.value.multidim <==> !(run == "final" && timestep == "daily" && version == "v07"))
    ensures run == "final" && timestep == "30min" ==> r.value.url == HalfHourlyUrl(Server, "HH", "", d, version[1..])
    ensures run == "late" && timestep == "30min" ==> r.value.url == HalfHourlyUrl(Server2, "HHL", "-L", d, version[1..])
    ensures run == "early" && timestep == "30min" ==> r.value.url == HalfHourlyUrl(Server2, "HHE", "-E", d, version[1..])
    ensures run == "final" && timestep == "daily" ==>
      r.value.url == DailyUrl("DF", "", d, version[1..], if version == "v07" then "B.nc4.nc4" else ".nc4.nc4")
    ensures run == "late" && timestep == "daily" ==> r.value.url == DailyUrl("DL", "-L", d, version[1..], ".nc4.nc4")
    ensures run == "early" && timestep == "daily" ==> r.value.url == DailyUrl("DE", "-E", d, version[1..], ".nc4.nc4")
    ensures run == "final" && timestep == "monthly" ==> r.value.url == MonthlyUrl(d, version[1..])
  {
    var vv := version[1..];
    var varName := if version == "v06" then "precipitationCal" else "precipitation";
    if run == "final" then
      if timestep == "30min" then
        Ok(Request(HalfHourlyUrl(Server, "HH", "", d, vv), varName, true))
      else if timestep == "daily" then
        if version == "v07" then Ok(Request(DailyUrl("DF", "", d, vv, "B.nc4.nc4"), varName, false))
        else Ok(Request(DailyUrl("DF", "", d, vv, ".nc4.nc4"), varName, true))
      else
        Ok(Request(MonthlyUrl(d, vv), "precipitation", true))
    else if run == "late" then
      if timestep == "30min" then Ok(Request(HalfHourlyUrl(Server2, "HHL", "-L", d, vv), varName, true))
      else if timestep == "daily" then Ok(Request(DailyUrl("DL", "-L", d, vv, ".nc4.nc4"), varName, true))
      else Err(TypeError(MonthlyMessage))
    else
      if timestep == "30min" then Ok(Request(HalfHourlyUrl(Server2, "HHE", "-E", d, vv), varName, true))
      else if timestep == "daily" then Ok(Request(DailyUrl("DE", "-E", d, vv, ".nc4.nc4"), varName, true))
      else Err(TypeError(MonthlyMessage))
  }

  /** Which server and which ending each request gets: only the half-hourly
      files of the late and early runs come from the second server, and only
      the daily files end otherwise than with "B.HDF5.nc4?", the final run's
      v07 file with "B.nc4.nc4?" and the others with ".nc4.nc4?". */
  lemma SelectServerAndEnding(d: Date, version: string, run: string, timestep: string)
    requires Valid(d) && KnownVersion(version) && KnownRun(run) && KnownTimestep(timestep)
    requires Select(d, version, run, timestep).Ok?
    ensures var url := Select(d, version, run, timestep).value.url;
      && StartsWith(url, (if run != "final" && timestep == "30min" then Server2 else Server) + "/GPM_3IMERG")
      && EndsWith(url, if timestep != "daily" then "V" + version[1..] + "B.HDF5.nc4?"
                       else if run == "final" && version == "v07" then "B.nc4.nc4" + "?"
                       else ".nc4.nc4" + "?")
  {
    var vv := version[1..];
    var url := Select(d, version, run, timestep).value.url;
    if timestep == "30min" && run == "final" {
      DirectoryHead(url, Server, "HH", vv, Year4(d), YearDay3(d));
    } else if timestep == "30min" && run == "late" {
      DirectoryHead(url, Server2, "HHL", vv, Year4(d), YearDay3(d));
    } else if timestep == "30min" {
      DirectoryHead(url, Server2, "HHE", vv, Year4(d), YearDay3(d));
    } else if timestep == "daily" && run == "final" {
      DirectoryHead(url, Server, "DF", vv, Year4(d), Month2(d));
    } else if timestep == "daily" && run == "late" {
      DirectoryHead(url, Server, "DL", vv, Year4(d), Month2(d));
    } else if timestep == "daily" {
      DirectoryHead(url, Server, "DE", vv, Year4(d), Month2(d));
    } else {
      MonthlyHead(url, vv, Year4(d));
    }
  }

  /** A URL in the monthly directory `{server}/GPM_3IMERGM.{vv}/{year}`
      starts with `{server}/GPM_3IMERG`. */
  lemma MonthlyHead(url: string, vv: string, year: string)
    requires StartsWith(url, Server + "/GPM_3IMERGM." + vv + "/" + year)
    ensures StartsWith(url, Server + "/GPM_3IMERG")
  {
    var head := Server + "/GPM_3IMERG";
    assert "/GPM_3IMERGM." == "/GPM_3IMERG" + "M.";
    var dir := Server + "/GPM_3IMERGM." + vv + "/" + year;
    assert dir == head + ("M." + vv + "/" + year);
    assert url[..|head|] == dir[..|head|] == head;
  }

  /** A URL in the directory `{server}/GPM_3IMERG{collection}.{vv}/{year}/{folder}`
      starts with `{server}/GPM_3IMERG`. */
  lemma DirectoryHead(url: string, server: string, collection: string, vv: string, year: string, folder: string)
    requires StartsWith(url, server + "/GPM_3IMERG" + collection + "." + vv + "/" + year + "/" + folder)
    ensures StartsWith(url, server + "/GPM_3IMERG")
  {
    var head := server + "/GPM_3IMERG";
    var dir := head + collection + "." + vv + "/" + year + "/" + folder;
    assert dir == head + (collection + "." + vv + "/" + year + "/" + folder);
    assert url[..|head|] == dir[..|head|] == head;
  }

  /** `IMERG.download`. `fetched` says whether the HTTP request returned 200.
      Once the arguments pass, the end of the half hour is computed for
      every request, before the monthly check, so it can overflow even for
      a daily or monthly request. */
  function Download(d: Date, version: string, run: string, timestep: string,
                    outpath: string, extent: Option<seq<real>>, fetched: bool): (r: Result<Plan>)
    requires Valid(d)
    ensures Validate(version, run, timestep, extent).Fail? ==>
      r == Err(Validate(version, run, timestep, extent).error)
    ensures r.Ok? <==> (Validate(version, run, timestep, extent).Pass? && HalfHourLater(d).Some?
                        && !(run != "final" && timestep == "monthly") && fetched)
    ensures Validate(version, run, timestep, extent).Pass? && HalfHourLater(d).None? ==>
      r == Err(OverflowError(OverflowMessage))
    ensures (Validate(version, run, timestep, extent).Pass? && HalfHourLater(d).Some?
             && run != "final" && timestep == "monthly") ==>
      r == Err(TypeError(MonthlyMessage))
    ensures (Validate(version, run, timestep, extent).Pass? && HalfHourLater(d).Some?
             && !(run != "final" && timestep == "monthly") && !fetched) ==>
      r == Err(TypeError(DownloadMessage))
    ensures r.Ok? ==> r.value.fetch.Http? && r.value.saved == "temporal.nc" && r.value.unpack.None?
    ensures r.Ok? ==> (r.value.conversion.Some?
      && r.value.conversion.value.source == "temporal.nc"
      && r.value.conversion.value.time == TimeKey(d)
      && r.value.conversion.value.options.transpose
      && r.value.conversion.value.options.flip
      && !r.value.conversion.value.options.correction)
    ensures r.Ok? ==> (r.value.fetch.url == Select(d, version, run, timestep).value.url
      && r.value.conversion.value.variable == Select(d, version, run, timestep).value.varName
      && r.value.conversion.value.options.multidim == Select(d, version, run, timestep).value.multidim)
    ensures r.Ok? ==> (r.value.finish.CopyAsIs? <==> extent.None?)
    ensures r.Ok? && extent.Some? ==> r.value.finish == ClipAndFill(BoxOf(extent.value), ZeroFill)
    ensures r.Ok? ==> r.value.output == outpath
  {
    var check := Validate(version, run, timestep, extent);
    if check.Fail? then Err(check.error)
    else if HalfHourLater(d).None? then Err(OverflowError(OverflowMessage))
    else
      var request := Select(d, version, run, timestep);
      if request.Err? then Err(request.error)
      else if !fetched then Err(TypeError(DownloadMessage))
      else
        var req := request.value;
        var options := Convert.Options(flip := true, correction := false, multidim := req.multidim, transpose := true);
        Ok(Plan(Http(req.url), "temporal.nc", None,
                Some(Conversion("temporal.nc", req.varName, TimeKey(d), options)),
                FinishFor(extent, ZeroFill), outpath))
  }

  /** From 23:30:01 on the last day a `datetime` can hold, every request
      that passes the argument checks fails on the end of the half hour,
      whatever its run, timestep and extent. */
  lemma LastHalfHourOverflows(d: Date, version: string, run: string, timestep: string,
                              outpath: string, extent: Option<seq<real>>, fetched: bool)
    requires Valid(d) && d.year == 9999 && d.month == 12 && d.day == 31
    requires d.hour == 23 && d.minute * 60 + d.second > 30 * 60
    requires Validate(version, run, timestep, extent).Pass?
    ensures Download(d, version, run, timestep, outpath, extent, fetched) == Err(OverflowError(OverflowMessage))
  {
    assert SecondOfDay(d) + 1799 >= 86400;
  }
}

=== FILE: mswep.dfy ===
/** `MSWEP` (meteosatpy/mswep.py): the constructor requires rclone; a
    download copies one NetCDF file from a shared Google Drive folder with
    `rclone sync`, renames it, converts it without any rearrangement, and
    copies or clips the raster.

    Whether rclone is installed and the exit status of the `rclone` command
    are the parameters `installed` and `status`.
 */
module Mswep {
  import opened Errors
  import opened Text
  import opened Dates
  import opened Plans
  import Convert

  const RcloneMessage := "Rclone is not installed. Please install it using: 'pip install rclone'"
    + " or 'conda install conda-forge::rclone'. To set up Rclone with a"
    + " Google Drive account, we recommend watching this video tutorial"
    + " https://www.youtube.com/watch?v=vPs9K_VC-lg"
  const TimestepMessage := "Invalid timestep. Please provide '3hourly', 'daily', or 'monthly'."
  const DatasetMessage := "Invalid dataset. Please provide 'NTR', 'Past', or 'Past_nogauge'."
  const ExtentMessage := "Invalid extent. Please provide a list with coordinates: 'north', 'south', 'east', 'west'"
  const DownloadMessage := "Error occurred while downloading: No exist data for selected date"

  const Remote := "rclone sync -v --drive-shared-with-me GoogleDrive:/MSWEP_V280"

  /** The constructor refuses to go on without rclone. */
  function Setup(installed: bool): (c: Check)
    ensures c.Pass? <==> installed
    ensures !installed ==> c == Fail(ValueError(RcloneMessage))
  {
    if installed then Pass else Fail(ValueError(RcloneMessage))
  }

  predicate KnownTimestep(timestep: string) {
    timestep == "3hourly" || timestep == "daily" || timestep == "monthly"
  }

  predicate KnownDataset(dataset: string) {
    dataset == "NTR" || dataset == "Past" || dataset == "Past_nogauge"
  }

  /** Timestep, then dataset, then extent. */
  function Validate(timestep: string, dataset: string, extent: Option<seq<real>>): (c: Check)
    ensures c.Pass? <==> KnownTimestep(timestep) && KnownDataset(dataset) && ExtentOk(extent)
    ensures !KnownTimestep(timestep) ==> c == Fail(ValueError(TimestepMessage))
    ensures KnownTimestep(timestep) && !KnownDataset(dataset) ==> c == Fail(ValueError(DatasetMessage))
    ensures KnownTimestep(timestep) && KnownDataset(dataset) && !ExtentOk(extent) ==>
      c == Fail(ValueError(ExtentMessage))
  {
    if !(timestep in ["3hourly", "daily", "monthly"]) then Fail(ValueError(TimestepMessage))
    else if !(dataset in ["NTR", "Past", "Past_nogauge"]) then Fail(ValueError(DatasetMessage))
    else if extent.Some? && |extent.value| != 4 then Fail(ValueError(ExtentMessage))
    else Pass
  }

  /** The remote file: `%Y%j.%H.nc`, `%Y%j.nc` or `%Y%m.nc`. The stamp can be
      read back: the year, then the ordinal day and hour, or the month. */
  function FileName(d: Date, timestep: string): (s: string)
    requires Valid(d) && KnownTimestep(timestep)
    ensures EndsWith(s, ".nc")
    ensures |s| == (if timestep == "3hourly" then 13 else if timestep == "daily" then 10 else 9)
    ensures AllDigits(s[..4]) && Value(s[..4]) == d.year
    ensures timestep != "monthly" ==> AllDigits(s[4..7]) && Value(s[4..7]) == DayOfYear(d)
    ensures timestep == "3hourly" ==> s[7] == '.' && AllDigits(s[8..10]) && Value(s[8..10]) == d.hour
    ensures timestep == "monthly" ==> AllDigits(s[4..6]) && Value(s[4..6]) == d.month
  {
    var s := if timestep == "3hourly" then Year4(d) + YearDay3(d) + "." + Hour2(d) + ".nc"
      else if timestep == "daily" then Year4(d) + YearDay3(d) + ".nc"
      else Year4(d) + Month2(d) + ".nc";
    assert s[..4] == Year4(d);
    assert timestep != "monthly" ==> s[4..7] == YearDay3(d);
    assert timestep == "3hourly" ==> s[8..10] == Hour2(d);
    assert timestep == "monthly" ==> s[4..6] == Month2(d);
    assert s[|s| - 3..] == ".nc";
    s
  }

  /** Daily file names tell days apart: the year and the ordinal day fix the
      calendar day. */
  lemma DailyNamesSeparateDays(d1: Date, d2: Date)
    requires Valid(d1) && Valid(d2)
    ensures FileName(d1, "daily") == FileName(d2, "daily") <==>
      d1.year == d2.year && d1.month == d2.month && d1.day == d2.day
  {
    var s1 := FileName(d1, "daily");
    var s2 := FileName(d2, "daily");
    if s1 == s2 {
      assert s1[..4] == s2[..4] && s1[4..7] == s2[4..7];
      DayOfYearInjective(d1, d2);
    }
    if d1.year == d2.year && d1.month == d2.month && d1.day == d2.day {
      assert DayOfYear(d1) == DayOfYear(d2);
      assert Year4(d1) == Year4(d2) && YearDay3(d1) == YearDay3(d2);
    }
  }

  /** The Drive folder of a timestep: `3hourly` as it is, `daily` and
      `monthly` with a capital first letter. */
  function Folder(timestep: string): (f: string)
    requires KnownTimestep(timestep)
    ensures |f| == |timestep| && f[1..] == timestep[1..]
    ensures timestep == "3hourly" ==> f[0] == timestep[0]
    ensures timestep != "3hourly" ==> f[0] as int == timestep[0] as int - 32
  {
    if timestep == "daily" then "Daily" else if timestep == "monthly" then "Monthly" else timestep
  }

  /** The path of one file on the shared drive: dataset, folder, file. */
  function RemotePath(d: Date, timestep: string, dataset: string): string
    requires Valid(d) && KnownTimestep(timestep)
  {
    "/" + dataset + "/" + Folder(timestep) + "/" + FileName(d, timestep)
  }

  /** The `rclone sync` command for one file: the fixed command and remote,
      the file's path, and the current directory as destination, and
      nothing else. */
  function Command(d: Date, timestep: string, dataset: string): (cmd: string)
    requires Valid(d) && KnownTimestep(timestep)
    ensures StartsWith(cmd, Remote)
    ensures EndsWith(cmd, " ./")
    ensures |cmd| == |Remote| + |RemotePath(d, timestep, dataset)| + 3
    ensures cmd[|Remote|..|cmd| - 3] == RemotePath(d, timestep, dataset)
  {
    Pieces(Remote, RemotePath(d, timestep, dataset), " ./");
    Remote + RemotePath(d, timestep, dataset) + " ./"
  }

  /** `MSWEP.download`; `status` is the exit status of the rclone command. */
  function Download(d: Date, timestep: string, dataset: string, outpath: string,
                    extent: Option<seq<real>>, status: int): (r: Result<Plan>)
    requires Valid(d)
    ensures r.Ok? <==> Validate(timestep, dataset, extent).Pass? && status == 0
    ensures Validate(timestep, dataset, extent).Fail? ==> r == Err(Validate(timestep, dataset, extent).error)
    ensures Validate(timestep, dataset, extent).Pass? && status != 0 ==> r == Err(TypeError(DownloadMessage))
    ensures r.Ok? ==> (var p := r.value;
      && p.fetch == Sync(Command(d, timestep, dataset), FileName(d, timestep))
      && p.saved == "temporal.nc"
      && p.unpack.None?
      && p.conversion == Some(Conversion("temporal.nc", "precipitation", TimeKey(d),
                                         Convert.Options(flip := false, correction := false,
                                                         multidim := false, transpose := false)))
      && p.output == outpath
      && (p.finish.CopyAsIs? <==> extent.None?)
      && (extent.Some? ==> p.finish == ClipAndFill(BoxOf(extent.value), ZeroFill)))
  {
    var check := Validate(timestep, dataset, extent);
    if check.Fail? then Err(check.error)
    else if status != 0 then Err(TypeError(DownloadMessage))
    else
      var options := Convert.Options(flip := false, correction := false, multidim := false, transpose := false);
      Ok(Plan(Sync(Command(d, timestep, dataset), FileName(d, timestep)), "temporal.nc", None,
              Some(Conversion("temporal.nc", "precipitation", TimeKey(d), options)),
              FinishFor(extent, ZeroFill), outpath))
  }
}

=== FILE: persiann.dfy ===
/** `PERSIANN.download` (meteosatpy/persiann.py): the CHRS data portal is
    asked for a whole-map archive in two steps. The first query returns the
    caller's address and the archive's name. The second asks the portal to
    build the archive at a link made from them. The archive is then fetched
    and unzipped, its raster gets the WGS84 datum, and it is copied or
    clipped.

    The three HTTP requests, the JSON decoding and the zip extraction are not
    modelled. The two status codes and the two fields read from the first
    reply are parameters.
 */
module Persiann {
  import opened Errors
  import opened Text
  import opened Dates
  import opened Utils
  import opened Plans
  import Convert

  const TimestepMessage := "Invalid timestep. Please provide \"hourly\", \"3hourly\", \"6hourly\", \"daily\", \"monthly\", \"annual\""
  const DatasetMessage := "Invalid dataset. Please provide \"PERSIANN\", \"CCS\", \"CDR\", \"PDIR\"."
  const SubdailyMessage := "PERSIANN CDR does not provide subdaily data."
  const QueryMessage := "Error while querying PERSIANN data server"
  const LinkMessage := "Error while generating download link"

  const QueryUrl := "https://chrsdata.eng.uci.edu/php/downloadWholeData.php"
  const LinkUrl := "https://chrsdata.eng.uci.edu/php/emailDownload.php"
  const FileBase := "https://chrsdata.eng.uci.edu/userFile"

  /** The portal's folder for each dataset. */
  const Folders: map<string, string> := map[
    "PERSIANN" := "PERSIANN",
    "CCS" := "PERSIANN-CCS",
    "CDR" := "PERSIANN-CDR",
    "PDIR" := "PDIR"
  ]

  predicate KnownTimestep(timestep: string) {
    timestep in ["hourly", "3hourly", "6hourly", "daily", "monthly", "annual"]
  }

  predicate KnownDataset(dataset: string) {
    dataset in Folders
  }

  predicate Subdaily(timestep: string) {
    timestep in ["hourly", "3hourly", "6hourly"]
  }

  /** Timestep, then dataset, then the CDR record's lack of sub-daily data. */
  function Validate(timestep: string, dataset: string): (c: Check)
    ensures c.Pass? <==> KnownTimestep(timestep) && KnownDataset(dataset) && !(dataset == "CDR" && Subdaily(timestep))
    ensures !KnownTimestep(timestep) ==> c == Fail(ValueError(TimestepMessage))
    ensures KnownTimestep(timestep) && !KnownDataset(dataset) ==> c == Fail(ValueError(DatasetMessage))
    ensures KnownTimestep(timestep) && KnownDataset(dataset) && dataset == "CDR" && Subdaily(timestep) ==>
      c == Fail(ValueError(SubdailyMessage))
  {
    if !(timestep in ["hourly", "3hourly", "6hourly", "daily", "monthly", "annual"]) then Fail(ValueError(TimestepMessage))
    else if !(dataset in ["PERSIANN", "CCS", "CDR", "PDIR"]) then Fail(ValueError(DatasetMessage))
    else if dataset == "CDR" && timestep in ["hourly", "3hourly", "6hourly"] then Fail(ValueError(SubdailyMessage))
    else Pass
  }

  /** What the first reply yields: its status and, when it is 200, the two
      fields of its JSON body that the code reads. */
  datatype QueryReply = QueryReply(status: int, userIP: string, zipFile: string)

  /** The parameters of the request that makes the portal build the archive. */
  datatype LinkRequest = LinkRequest(email: string, downloadLink: string, fileExtension: string,
                                     dataType: string, startDate: string, endDate: string,
                                     timestep: string, domain: string, domainParameter: string)

  /** Everything a successful download sends and does: the query and the
      endpoint it is sent to, the link request and its endpoint, the
      fetch-and-clip plan, and the datum written into the raster. */
  datatype Order = Order(queryUrl: string, query: Params, linkUrl: string, link: LinkRequest,
                         plan: Plan, crs: string)

  /** The archive's name: `{dataset}_{zipFile}.zip`. */
  function ZipName(dataset: string, zipFile: string): string {
    dataset + "_" + zipFile + ".zip"
  }

  /** Where the portal puts the archive: under the download base, the
      caller's address and the dataset's folder, then the archive's name,
      and nothing else. */
  function FileUrl(userIP: string, dataset: string, zipFile: string): (url: string)
    requires dataset in Folders
    ensures StartsWith(url, FileBase + "/")
    ensures EndsWith(url, ZipName(dataset, zipFile))
    ensures |url| == |FileBase| + 1 + |userIP + "/temp/" + Folders[dataset] + "/"| + |ZipName(dataset, zipFile)|
    ensures url[|FileBase| + 1..|url| - |ZipName(dataset, zipFile)|] == userIP + "/temp/" + Folders[dataset] + "/"
  {
    Pieces(FileBase + "/", userIP + "/temp/" + Folders[dataset] + "/", ZipName(dataset, zipFile));
    FileBase + "/" + (userIP + "/temp/" + Folders[dataset] + "/") + ZipName(dataset, zipFile)
  }

  /** The last step. The extent's length is never checked: a list of more
      than four numbers is clipped to its first four, and a shorter one fails
      on the first missing index, after the archive has been fetched. */
  function FinishOf(extent: Option<seq<real>>): (r: Result<Finish>)
    ensures r.Err? <==> extent.Some? && |extent.value| < 4
    ensures r.Err? ==> r.error == IndexError("extent[" + [DigitChar(|extent.value|)] + "]")
    ensures r.Ok? ==> (r.value.CopyAsIs? <==> extent.None?)
    ensures r.Ok? && extent.Some? ==>
      r.value == ClipAndFill(BoxOf(extent.value[..4]), ZeroFill)
  {
    if extent.None? then Ok(CopyAsIs)
    else if |extent.value| < 4 then Err(IndexError("extent[" + [DigitChar(|extent.value|)] + "]"))
    else Ok(ClipAndFill(BoxOf(extent.value[..4]), ZeroFill))
  }

  /** Where the other products check for four coordinates, this one agrees
      with them on every list they accept. */
  lemma FinishAgreesOnFourCoordinates(extent: Option<seq<real>>)
    requires ExtentOk(extent)
    ensures FinishOf(extent) == Ok(FinishFor(extent, ZeroFill))
  {
    if extent.Some? {
      assert extent.value[..4] == extent.value;
    }
  }

  /** `PERSIANN.download`. */
  function Download(d: Date, timestep: string, dataset: string, outpath: string,
                    extent: Option<seq<real>>, reply: QueryReply, linkStatus: int): (r: Result<Order>)
    requires Valid(d)
    ensures Validate(timestep, dataset).Fail? ==> r == Err(Validate(timestep, dataset).error)
    ensures Validate(timestep, dataset).Pass? && !(timestep in ServerSteps) ==> r == Err(UnboundLocal("ds"))
    ensures Validate(timestep, dataset).Pass? && timestep in ServerSteps && reply.status != 200 ==>
      r == Err(Exception(QueryMessage))
    ensures Validate(timestep, dataset).Pass? && timestep in ServerSteps && reply.status == 200 && linkStatus != 200 ==>
      r == Err(Exception(LinkMessage))
    ensures (Validate(timestep, dataset).Pass? && timestep in ServerSteps && reply.status == 200 && linkStatus == 200
             && FinishOf(extent).Err?) ==> r == Err(FinishOf(extent).error)
    ensures r.Ok? <==> (Validate(timestep, dataset).Pass? && timestep in ServerSteps
                        && reply.status == 200 && linkStatus == 200 && FinishOf(extent).Ok?)
    ensures r.Ok? ==> r.value.queryUrl == QueryUrl && r.value.linkUrl == LinkUrl
    ensures r.Ok? ==> r.value.query == PersiannParams(d, timestep, dataset).value
    ensures r.Ok? ==> (var link := r.value.link;
      && link.downloadLink == FileUrl(reply.userIP, dataset, reply.zipFile)
      && link.email == "prueba@gmail.com" && link.fileExtension == "zip"
      && link.dataType == dataset && link.timestep == timestep
      && link.startDate == r.value.query.startDate && link.endDate == r.value.query.endDate
      && link.domain == "wholemap" && link.domainParameter == "undefined")
    ensures r.Ok? ==> (var p := r.value.plan;
      && p.fetch == Http(r.value.link.downloadLink)
      && p.saved == "temporal.zip" && p.unpack.None? && p.conversion.None?
      && p.output == outpath
      && p.finish == FinishOf(extent).value)
    ensures r.Ok? ==> r.value.crs == Convert.WGS84
  {
    var check := Validate(timestep, dataset);
    if check.Fail? then Err(check.error)
    else
      var params :- PersiannParams(d, timestep, dataset);
      if reply.status != 200 then Err(Exception(QueryMessage))
      else
        var url := FileUrl(reply.userIP, dataset, reply.zipFile);
        var link := LinkRequest("prueba@gmail.com", url, "zip", dataset, params.startDate, params.endDate,
                                timestep, "wholemap", "undefined");
        if linkStatus != 200 then Err(Exception(LinkMessage))
        else
          var finish :- FinishOf(extent);
          Ok(Order(QueryUrl, params, LinkUrl, link, Plan(Http(url), "temporal.zip", None, None, finish, outpath), Convert.WGS84))
  }

  /** The validation accepts "annual", but the query builder only knows
      "yearly": every annual request ends in the unassigned-variable error,
      before the portal is contacted. */
  lemma AnnualNeverDownloads(d: Date, dataset: string, outpath: string, extent: Option<seq<real>>,
                             reply: QueryReply, linkStatus: int)
    requires Valid(d) && KnownDataset(dataset)
    ensures Download(d, "annual", dataset, outpath, extent, reply, linkStatus) == Err(UnboundLocal("ds"))
  {
    assert Validate("annual", dataset).Pass?;
    assert !("annual" in ServerSteps);
  }

  /** Conversely, "yearly" is known to the query builder but refused by the
      validation: no timestep reaches the yearly query. */
  lemma YearlyRefused(d: Date, dataset: string, outpath: string, extent: Option<seq<real>>,
                      reply: QueryReply, linkStatus: int)
    requires Valid(d)
    ensures Download(d, "yearly", dataset, outpath, extent, reply, linkStatus) == Err(ValueError(TimestepMessage))
  {
  }

  /** The link request asks for the query's own date stamp, kept at the
      precision of the timestep. */
  lemma LinkDates(d: Date, timestep: string, dataset: string, outpath: string,
                  extent: Option<seq<real>>, reply: QueryReply, linkStatus: int)
    requires Valid(d)
    requires Download(d, timestep, dataset, outpath, extent, reply, linkStatus).Ok?
    ensures var o := Download(d, timestep, dataset, outpath, extent, reply, linkStatus).value;
      o.link.startDate == o.link.endDate == HourStamp(d)[..ServerSteps[timestep].2]
  {
  }
}

=== FILE: plans.dfy ===
/** What a product's `download` does once its arguments are accepted, as a
    value: which remote file it fetches, where the copy lands, how it is
    converted, and how the final raster is cut to the requested extent.

    The network, the file system and the clipping library are not modelled;
    their outcomes are parameters of the product functions, and the clip
    itself is recorded as a step (`ClipAndFill`) rather than computed. Only
    the replacement of negative cells that follows every clip is computed,
    on `Cell`s that are numbers or NaN.
 */
module Plans {
  import opened Errors
  import opened Grids
  import Convert

  /** The remote request: an HTTP GET of `url`, or an rclone `command` run in
      a shell that leaves `fileName` in the working directory. */
  datatype Fetch = Http(url: string) | Sync(command: string, fileName: string)

  /** The bounding box that `createMask` turns into a clip polygon. */
  datatype Box = Box(north: real, south: real, east: real, west: real)

  /** What negative cells become after the clip: 0, or NaN (CMORPH). */
  datatype Fill = ZeroFill | NaNFill

  /** The last step: copy the converted raster to the output path as it is,
      or clip it to a box, replace its negative cells, and write that. */
  datatype Finish = CopyAsIs | ClipAndFill(box: Box, fill: Fill)

  /** A call of `netcdf2TIFF` on a local file, without an output path. */
  datatype Conversion = Conversion(source: string, variable: string, time: string, options: Convert.Options)

  /** The steps of a download that reaches its end. `saved` is the local file
      the fetch produces; `unpack` the optional gzip step; `output` the path
      the caller asked for. */
  datatype Plan = Plan(fetch: Fetch, saved: string, unpack: Option<Convert.Ungzip>,
                       conversion: Option<Conversion>, finish: Finish, output: string)

  /** A download that ends normally: either all steps ran, or the fetch
      failed and the function printed a message and returned early. */
  datatype Report = Written(plan: Plan) | Abandoned(fetch: Fetch)

  /** The optional `extent` argument: absent, or a list that must hold four
      numbers (north, south, east, west). */
  predicate ExtentOk(extent: Option<seq<real>>) {
    extent.None? || |extent.value| == 4
  }

  function BoxOf(e: seq<real>): (b: Box)
    requires |e| == 4
    ensures b.north == e[0] && b.south == e[1] && b.east == e[2] && b.west == e[3]
  {
    Box(e[0], e[1], e[2], e[3])
  }

  /** The final step of CHIRPS, IMERG, MSWEP and PERSIANN: copy when no
      extent is given, otherwise clip to it and replace negatives. */
  function FinishFor(extent: Option<seq<real>>, fill: Fill): (f: Finish)
    requires ExtentOk(extent)
    ensures f.CopyAsIs? <==> extent.None?
    ensures f.ClipAndFill? ==> f.box == BoxOf(extent.value) && f.fill == fill
  {
    if extent.None? then CopyAsIs else ClipAndFill(BoxOf(extent.value), fill)
  }

  /** A raster cell after clipping: a number, or NaN (no data). */
  datatype Cell = Num(v: real) | NaN

  predicate IsNegative(c: Cell) {
    c.Num? && c.v < 0.0
  }

  function FillValue(fill: Fill): Cell {
    match fill
    case ZeroFill => Num(0.0)
    case NaNFill => NaN
  }

  /** `raster[raster < 0] = 0` (or `np.nan`): negative cells take the fill
      value and every other cell, NaN included, keeps its value. */
  function FillNegatives(a: Matrix<Cell>, fill: Fill): (r: Matrix<Cell>)
    requires a.Valid()
    ensures r.Valid() && r.Height() == a.Height() && r.width == a.width
    ensures forall i, j :: 0 <= i < r.Height() && 0 <= j < r.width ==>
      !IsNegative(r.rows[i][j])
    ensures forall i, j :: 0 <= i < r.Height() && 0 <= j < r.width && !IsNegative(a.rows[i][j]) ==>
      r.rows[i][j] == a.rows[i][j]
    ensures forall i, j :: 0 <= i < r.Height() && 0 <= j < r.width && IsNegative(a.rows[i][j]) ==>
      r.rows[i][j] == FillValue(fill)
  {
    Matrix(seq(|a.rows|, i requires 0 <= i < |a.rows| =>
             seq(a.width, j requires 0 <= j < a.width =>
               if IsNegative(a.rows[i][j]) then FillValue(fill) else a.rows[i][j])),
           a.width)
  }

  /** Replacing negatives a second time changes nothing. */
  lemma FillNegativesIdempotent(a: Matrix<Cell>, fill: Fill)
    requires a.Valid()
    ensures FillNegatives(FillNegatives(a, fill), fill) == FillNegatives(a, fill)
  {
    var once := FillNegatives(a, fill);
    var twice := FillNegatives(once, fill);
    assert |twice.rows| == |once.rows|;
    forall i | 0 <= i < |once.rows|
      ensures twice.rows[i] == once.rows[i]
    {
      assert |twice.rows[i]| == |once.rows[i]|;
    }
  }
}

=== FILE: text.dfy ===
/** Decimal rendering, zero padding and substring replacement on strings.

    These stand in for the Python formatting the repository relies on:
    `f"{n:04d}"` and the numeric `strftime` directives (zero-padded decimal
    fields) and `str.replace` (left-to-right, non-overlapping replacement).
 */
module Text {

  predicate IsDigit(c: char) {
    '0' <= c <= '9'
  }

  predicate AllDigits(s: string) {
    forall i :: 0 <= i < |s| ==> IsDigit(s[i])
  }

  function Pow10(k: nat): (p: nat)
    ensures p >= 1
  {
    if k == 0 then 1 else 10 * Pow10(k - 1)
  }

  function DigitChar(n: nat): (c: char)
    requires n < 10
    ensures IsDigit(c)
  {
    ('0' as int + n) as char
  }

  function DigitValue(c: char): (n: nat)
    requires IsDigit(c)
    ensures n < 10
  {
    c as int - '0' as int
  }

  /** The shortest decimal spelling of `n` ("0" for zero). */
  function Decimal(n: nat): (s: string)
    ensures 1 <= |s|
    ensures AllDigits(s)
  {
    if n < 10 then [DigitChar(n)] else Decimal(n / 10) + [DigitChar(n % 10)]
  }

  /** The number a string of decimal digits spells; leading zeros count for nothing. */
  function Value(s: string): nat
    requires AllDigits(s)
  {
    if s == [] then 0 else Value(s[..|s| - 1]) * 10 + DigitValue(s[|s| - 1])
  }

  function Zeros(k: nat): (s: string)
    ensures |s| == k
    ensures forall i :: 0 <= i < k ==> s[i] == '0'
  {
    if k == 0 then [] else Zeros(k - 1) + "0"
  }

  /** `n` in decimal, left-padded with zeros to at least `width` characters,
      as Python's `f"{n:0{width}d}"` writes a non-negative integer. */
  function Pad(n: nat, width: nat): (s: string)
    ensures AllDigits(s)
    ensures |s| >= width
    ensures Value(s) == n
    ensures 1 <= width && n < Pow10(width) ==> |s| == width
  {
    var d := Decimal(n);
    var z := if |d| < width then Zeros(width - |d|) else [];
    DecimalRoundTrip(n);
    ValueLeadingZeros(z, d);
    DecimalLength(n, width);
    z + d
  }

  lemma {:induction false} DecimalRoundTrip(n: nat)
    ensures Value(Decimal(n)) == n
  {
    if n >= 10 {
      DecimalRoundTrip(n / 10);
      var d := Decimal(n);
      assert d[..|d| - 1] == Decimal(n / 10);
    }
  }

  lemma {:induction false} DecimalLength(n: nat, width: nat)
    ensures 1 <= width && n < Pow10(width) ==> |Decimal(n)| <= width
  {
    if n >= 10 && 1 <= width && n < Pow10(width) {
      assert n / 10 < Pow10(width - 1);
      DecimalLength(n / 10, width - 1);
    }
  }

  lemma {:induction false} ValueLeadingZeros(z: string, d: string)
    requires forall i :: 0 <= i < |z| ==> z[i] == '0'
    requires AllDigits(d)
    ensures AllDigits(z + d)
    ensures Value(z + d) == Value(d)
    decreases |d|
  {
    if d == [] {
      assert z + d == z;
      ZerosValue(z);
    } else {
      var s := z + d;
      assert s[..|s| - 1] == z + d[..|d| - 1];
      ValueLeadingZeros(z, d[..|d| - 1]);
    }
  }

  lemma {:induction false} ZerosValue(z: string)
    requires forall i :: 0 <= i < |z| ==> z[i] == '0'
    ensures AllDigits(z)
    ensures Value(z) == 0
  {
    if z != [] {
      ZerosValue(z[..|z| - 1]);
    }
  }

  /** Zero padding loses nothing: two numbers padded to the same width are
      spelled alike only when they are equal. */
  lemma PadInjective(a: nat, b: nat, width: nat)
    requires Pad(a, width) == Pad(b, width)
    ensures a == b
  {
  }

  /** The number spelled by two digit strings written one after the other. */
  lemma {:induction false} ValueAppend(a: string, b: string)
    requires AllDigits(a) && AllDigits(b)
    ensures AllDigits(a + b)
    ensures Value(a + b) == Value(a) * Pow10(|b|) + Value(b)
    decreases |b|
  {
    if b == [] {
      assert a + b == a;
    } else {
      var s := a + b;
      var b' := b[..|b| - 1];
      assert s[..|s| - 1] == a + b';
      assert s[|s| - 1] == b[|b| - 1];
      ValueAppend(a, b');
      var c := DigitValue(b[|b| - 1]);
      assert Value(s) == Value(a + b') * 10 + c;
      assert Value(b) == Value(b') * 10 + c;
      ShiftDigit(Value(a), Pow10(|b'|), Value(b'), c);
    }
  }

  lemma ShiftDigit(x: int, p: int, y: int, c: int)
    ensures (x * p + y) * 10 + c == x * (10 * p) + (y * 10 + c)
  {
  }

  /** `t` occurs somewhere in `s`. */
  predicate Contains(s: string, t: string) {
    exists i | 0 <= i <= |s| - |t| :: OccursAt(s, t, i)
  }

  predicate OccursAt(s: string, t: string, i: int) {
    0 <= i <= |s| - |t| && s[i..i + |t|] == t
  }

  predicate EndsWith(s: string, t: string) {
    |t| <= |s| && s[|s| - |t|..] == t
  }

  predicate StartsWith(s: string, t: string) {
    |t| <= |s| && s[..|t|] == t
  }

  /** `s` is `a`, then `b`, then `c`: the first is a prefix, the last a
      suffix, and the middle lies between. */
  predicate Joins(s: string, a: string, b: string, c: string) {
    && |s| == |a| + |b| + |c|
    && StartsWith(s, a) && s[|a|..|s| - |c|] == b && EndsWith(s, c)
  }

  /** Three strings written one after the other can be cut apart again. */
  lemma Pieces(a: string, b: string, c: string)
    ensures Joins(a + b + c, a, b, c)
  {
    var s := a + b + c;
    assert s[..|a|] == a;
    assert s[|a|..|s| - |c|] == b;
    assert s[|s| - |c|..] == c;
  }

  /** Python's `s.replace(pat, rep)` for a non-empty `pat`: scan from the left,
      and replace each occurrence that does not overlap an earlier one. */
  function Replace(s: string, pat: string, rep: string): string
    requires |pat| > 0
    decreases |s|
  {
    if |s| < |pat| then s
    else if s[..|pat|] == pat then rep + Replace(s[|pat|..], pat, rep)
    else [s[0]] + Replace(s[1..], pat, rep)
  }

  /** A string without `pat` comes back unchanged. */
  lemma {:induction false} ReplaceAbsent(s: string, pat: string, rep: string)
    requires |pat| > 0
    ensures !Contains(s, pat) ==> Replace(s, pat, rep) == s
    decreases |s|
  {
    if !Contains(s, pat) && |s| >= |pat| {
      assert !OccursAt(s, pat, 0);
      var t := s[1..];
      forall i | 0 <= i <= |t| - |pat|
        ensures !OccursAt(t, pat, i)
      {
        assert !OccursAt(s, pat, i + 1);
        assert t[i..i + |pat|] == s[i + 1..i + 1 + |pat|];
      }
      ReplaceAbsent(t, pat, rep);
      assert [s[0]] + t == s;
    }
  }

  /** Replacing by something no longer never lengthens the string. */
  lemma {:induction false} ReplaceShrinks(s: string, pat: string, rep: string)
    requires |pat| > 0 && |rep| <= |pat|
    ensures |Replace(s, pat, rep)| <= |s|
    decreases |s|
  {
    if |s| >= |pat| {
      if s[..|pat|] == pat {
        ReplaceShrinks(s[|pat|..], pat, rep);
      } else {
        ReplaceShrinks(s[1..], pat, rep);
      }
    }
  }
}

=== FILE: utils.dfy ===
/** The pure helpers of meteosatpy/utils.py that the products call:
    `min_code`, used in IMERG half-hourly file names, and
    `get_params_persiann`, the query record of the PERSIANN server.
 */
module Utils {
  import opened Errors
  import opened Text
  import opened Dates

  /** `min_code`: the minute of the day, `hour * 60 + minute`, written with at
      least four digits; a valid time needs exactly four. */
  function MinCode(d: Date): (s: string)
    requires Valid(d)
    ensures |s| == 4 && AllDigits(s)
    ensures Value(s) == d.hour * 60 + d.minute
    ensures Value(s) < 1440
  {
    Pad(d.hour * 60 + d.minute, 4)
  }

  /** Two times get the same code exactly when they share hour and minute. */
  lemma MinCodeSeparatesTimes(d1: Date, d2: Date)
    requires Valid(d1) && Valid(d2)
    ensures MinCode(d1) == MinCode(d2) <==> d1.hour == d2.hour && d1.minute == d2.minute
  {
    if MinCode(d1) == MinCode(d2) {
      assert d1.hour * 60 + d1.minute == d2.hour * 60 + d2.minute;
    }
  }

  /** The query record `get_params_persiann` returns. */
  datatype Params = Params(startDate: string, endDate: string, timestep: string,
                           timestepAlt: string, dataType: string, format: string, compression: string)

  /** The timesteps the server knows, with their two spellings in the query
      and the number of characters of `%Y%m%d%H` the date stamp keeps. */
  const ServerSteps: map<string, (string, string, nat)> := map[
    "hourly" := ("1hrly", "1h", 10),
    "3hourly" := ("3hrly", "3h", 10),
    "6hourly" := ("6hrly", "6h", 10),
    "daily" := ("daily", "1d", 8),
    "monthly" := ("monthly", "1m", 6),
    "yearly" := ("yearly", "1y", 4)
  ]

  /** `%Y%m%d%H`, the finest stamp; the coarser ones are its prefixes. */
  function HourStamp(d: Date): (s: string)
    requires Valid(d)
    ensures |s| == 10 && AllDigits(s)
  {
    CompactDate(d) + Hour2(d)
  }

  /** `get_params_persiann`. A timestep outside the six it knows leaves the
      local `ds` unassigned, and building the record then fails. */
  function PersiannParams(d: Date, timestep: string, dataType: string): (r: Result<Params>)
    requires Valid(d)
    ensures r.Ok? <==> timestep in ServerSteps
    ensures r.Err? ==> r.error == UnboundLocal("ds")
    ensures r.Ok? ==> r.value.startDate == r.value.endDate
    ensures r.Ok? ==> r.value.format == "Tif" && r.value.compression == "zip"
    ensures r.Ok? ==> r.value.dataType == dataType
    ensures r.Ok? ==> (r.value.timestep == ServerSteps[timestep].0 &&
                       r.value.timestepAlt == ServerSteps[timestep].1)
    ensures r.Ok? ==> r.value.startDate == HourStamp(d)[..ServerSteps[timestep].2]
  {
    var date := CompactDate(d);
    var stamp: Option<(string, string, string)> :=
      if timestep == "hourly" then Some((date + Hour2(d), "1hrly", "1h"))
      else if timestep == "3hourly" then Some((date + Hour2(d), "3hrly", "3h"))
      else if timestep == "6hourly" then Some((date + Hour2(d), "6hrly", "6h"))
      else if timestep == "daily" then Some((date, timestep, "1d"))
      else if timestep == "monthly" then Some((Year4(d) + Month2(d), timestep, "1m"))
      else if timestep == "yearly" then Some((Year4(d), timestep, "1y"))
      else None;
    match stamp
    case None => Err(UnboundLocal("ds"))
    case Some((ds, dtm, dtx)) =>
      assert HourStamp(d)[..6] == Year4(d) + Month2(d);
      assert HourStamp(d)[..4] == Year4(d);
      assert HourStamp(d)[..8] == date;
      Ok(Params(ds, ds, dtm, dtx, dataType, "Tif", "zip"))
  }
}
